=== FILE: README.md ===
# flaskGlowscriptHost core, modelled in Dafny

flaskGlowscriptHost is the Flask back end of the GlowScript browser IDE. It
stores users, their folders and their programs, and serves them through a
small JSON API. This project models the parts of it that make decisions, as
pure functions over immutable data:

- `urlnames.dfy` (module `UrlNames`): how `parseUrlPath` normalises the names
  captured from a request path. Characters in the unreserved set of section
  2.3 of RFC 3986, and `%`, are kept. Every other character becomes the
  `%XX` triplets of its UTF-8 bytes. `validate_names` then checks the result.
- `keys.dfy` (module `Keys`): the hierarchical `BunnetKey` of the Mongo
  models. A key is a chain of `(kind, name)` pairs, rendered as
  `Kind::name/Kind::name/...` and parsed back.
- `schema.dfy`, `adapter.dfy` (modules `Schema`, `Adapter`): the
  `User`/`Folder`/`Program` records and the storage adapter. The store is three
  maps: users by name, folders by (user, folder), and programs by
  (user, folder, program). Lookups are ancestor-scoped.
- `auth.py` decisions (module `Auth`): the running-locally flag, the session
  `user` entry, local login, logout, and the cross-host redirect of the OAuth
  callback.
- `routes.dfy` (module `Routes`): the override list, `authorize_user`,
  folder visibility, the login nickname, the `/%23` rewrite and the download
  file-type classifier.
- `handlers.dfy` (module `Handlers`): each API handler as a function from a
  store and a request to a new store and a reply.
- `setting.dfy` (module `SettingCache`): `Setting.get`, a cache in front of
  the datastore.
- `ide.dfy` (module `IdeShortcuts`): from the IDE's page script, `findLine`,
  `insertLineNumbers`, the outgoing message queue and the frame's ready
  handshake.
- `strs.dfy`, `wrappers.dfy`: Python string operations (`find`, `split`,
  `join`, `lower`) and `Option`/`Result`.

A Python exception escaping a handler becomes a reply with status 500. That
is what Flask sends. The model keeps the cases where the code, as written,
ends in such an exception:

- `authorize_user` for a logged-in requester and an unknown user name
  dereferences `None` in its diagnostic `print`.
- The folder listing reads `folder_owner.email` when the owner is missing.
- An anonymous `PUT /api/user/<name>` returns nothing.
- The program listing's denial branch uses a name that is never defined (see
  Findings).

Other behaviour is modelled exactly as the code has it:

- Folder `DELETE` and program copy/rename check no authorisation.
- The program listing applies the override list to the folder owner's email.
  The single-program `GET` applies it to the requester's. Downloads have no
  override.
- With no newline in a program's source, the classifier looks at every
  character but the last. A one-line `VPython` source therefore downloads as
  JavaScript.

Several operations the handlers call are not defined by the adapter class:
`program`, `new_program`, `set_datetime`, `put_program` and `delete_program`.
Others cannot run as written: `new_user`, `folders` and `new_folder` use
names that are never defined, `folder` and `programs` call
`ndb_models.Key`, which does not exist, and `BunnetKey.__init__` and `from_urlsafe`
fail too. For all of these the model captures what the code evidently
means.

## Model

| member | source | states |
|---|---|---|
| UrlNames.ValidateNames | src/routes.py:156-162 | accepts exactly when every character of every name is unreserved or `%` |
| UrlNames.Utf8 | src/routes.py:250 | one to four bytes per character; a character below 0x80 is exactly one byte, equal to its code; the bytes of a longer encoding are all at least 0x80 |
| UrlNames.Utf8Encode | src/routes.py:250 | between one and four bytes per character |
| UrlNames.HexDigit | src/routes.py:250 | every hex digit `quote` writes is an unreserved character |
| UrlNames.PercentEncode | src/routes.py:250 | three characters per byte, and the result passes `validate_names` |
| UrlNames.NormalizeAppend | src/routes.py:244-251 | normalisation works character by character: normalising a concatenation normalises each part |
| UrlNames.NormalizeValid | src/routes.py:240-262 | a normalised name passes `validate_names` exactly when the raw name has no `/` (the one character `quote` leaves alone) |
| UrlNames.ValidAppend | src/routes.py:156-162 | a concatenation passes validation exactly when both parts do |
| UrlNames.EscapeCharValid | src/routes.py:246-250 | the replacement of one character passes validation unless the character is `/` |
| UrlNames.NormalizeKeepsValid | src/routes.py:246-247 | a name made only of unreserved characters and `%` is left unchanged, so existing escapes are never escaped twice |
| UrlNames.EscapeCharStable | src/routes.py:246-250 | the replacement of any single character is itself left unchanged by normalisation |
| UrlNames.NormalizeIdempotent | src/routes.py:244-255 | normalising twice is the same as normalising once |
| UrlNames.NormalizeAlphabet | src/routes.py:244-255 | every character of a normalised name is unreserved, `%` or `/` |
| UrlNames.ParseNames | src/routes.py:236-262 | a missing match is "Parsing URL failed"; otherwise the names are the normalised groups, and they are accepted exactly when no group has a `/`, else "Invalid string in URL" |
| Keys.LookupKind | src/mongo_models.py:54-58 | a known kind is one of `User`, `Folder`, `Program` by its exact name; any other name is unknown |
| Keys.LookupKindName | src/mongo_models.py:54-58 | every kind is found again by its own name |
| Keys.MakeKey | src/mongo_models.py:71-83 | an odd number of arguments is rejected; an even-length list with an unknown kind at an even position fails with `UnknownKind`, naming such an argument; an empty list names no entity; a key that is built has exactly the given arguments as its pairs |
| Keys.MakeKeyArgs | src/mongo_models.py:71-83 | building a key from the arguments of any key gives that key back |
| Keys.MakePairsArgs | src/mongo_models.py:76-80 | the per-pair kind check accepts the arguments of any pair chain and rebuilds the same chain |
| Keys.Segments | src/mongo_models.py:87 | one `kind::name` segment per pair, in order |
| Keys.UrlsafeIsJoin | src/mongo_models.py:85-91 | the rendering is the segments of the chain, ancestors first, joined by `/` |
| Keys.ParseSegment | src/mongo_models.py:101 | a segment that parses renders back to the same text; one that does not split into exactly two parts on `::` fails as a bad segment; otherwise it parses exactly when the kind is known, and an unknown kind is reported |
| Keys.SplitTwo | src/mongo_models.py:101 | a text that splits on `::` into exactly two parts is those parts around one separator |
| Keys.ParseSegmentOfSegment | src/mongo_models.py:101 | the segment of a pair whose name has no `::` parses back to that pair |
| Keys.ParseSegments | src/mongo_models.py:94-102 | the pairs parsed from a list of segments render back to that list; the list parses exactly when every segment does |
| Keys.FromUrlsafe | src/mongo_models.py:94-102 | a parsed key renders back to the `/`-split of the input; the input parses exactly when every `/`-separated segment does |
| Keys.ParseSegmentsOfSegments | src/mongo_models.py:94-102 | the segments of a chain whose names have no `::` parse back to the chain |
| Keys.RoundTrip | src/mongo_models.py:85-102 | parsing the rendering of a key gives the key back when no name contains `/` or `::` |
| Keys.SegmentsSlashFree | src/mongo_models.py:87 | segments of names without `/` contain no `/` |
| Keys.NormalizedNamesArePlain | src/routes.py:244-255 | every name that passes normalisation and validation is free of `/` and `::`, so its keys round-trip |
| Adapter.UserAncestorOfFolders | src/db_translate.py:76-77 | the ancestor query for user `u` matches exactly the folders of `u` |
| Adapter.FolderAncestorOfPrograms | src/db_translate.py:90-91 | the ancestor query for folder `(u, f)` matches exactly the programs under it |
| Adapter.GetId | src/db_translate.py:52-53 | the id is the name in the last pair of the record's key |
| Adapter.GetIdOfKeys | src/db_translate.py:52-53 | the id of a user, folder or program key is its own name |
| Adapter.GetUser | src/db_translate.py:55-56 | some user whose email matches, and none exactly when no user has that email |
| Adapter.GetUserByUsername | src/db_translate.py:58-59 | the record stored under the name, and none exactly when there is none |
| Adapter.Folders | src/db_translate.py:76-77 | exactly the folders whose ancestor is user `u`, by name |
| Adapter.GetFolder | src/db_translate.py:79-80 | the folder on the chain user `u` / folder `f`, present exactly when the listing of `u` has it |
| Adapter.Programs | src/db_translate.py:90-91 | exactly the programs whose ancestor is folder `(u, f)`, by name, whether or not the folder record exists |
| Adapter.GetProgram | src/routes.py:490-491 | the program `(u, f, p)`, present exactly when the listing of `(u, f)` has it |
| Adapter.NewUser | src/db_translate.py:61-74 | adds the user with its email and secret; other users and all programs are unchanged |
| Adapter.NewUserFolders | src/db_translate.py:61-74 | when no folders are stored under that name beforehand, a new user owns exactly `MyPrograms` (public) and `Private` (not public), and no other user's folders change |
| Adapter.FoldersAt | src/db_translate.py:76-77 | a name is in a user's folder listing exactly when that user's folder record exists, and is listed with that record |
| Adapter.FoldersAfterInsert | src/db_translate.py:82-85 | storing a folder record changes the folder listing of its own user only |
| Adapter.NewFolder | src/db_translate.py:82-85 | the folder `(u, f)` exists with the given visibility; every other record is unchanged |
| Adapter.DeleteFolder | src/db_translate.py:87-88 | removes that folder's key and nothing else |
| Adapter.DeleteFolderKeepsPrograms | src/db_translate.py:87-88 | deleting a folder does not cascade: its programs are still listed |
| Adapter.SetDatetime | src/routes.py:526 | sets the timestamp and keeps every other field |
| Adapter.PutProgram | src/routes.py:528 | the program is stored under its key, replacing any previous one; nothing else changes |
| Adapter.DeleteProgram | src/routes.py:538 | that program is gone; nothing else changes |
| Adapter.SetupDB | src/db_translate.py:102-107 | the Mongo adapter exactly when `MONGO_URL` is set and non-empty, the NDB adapter otherwise |
| Auth.RunningLocallyCases | src/auth.py:47-49 | the flag is off exactly when the variable is unset or says `false` in any case; any other value, the empty string included, turns it on |
| Auth.GetUserInfo | src/auth.py:72-76 | the session's `user` entry when logged in, an empty dictionary otherwise |
| Auth.Email | src/routes.py:176-177 | the `email` entry of the user information, absent when the entry is |
| Auth.Login | src/auth.py:78-96 | running locally, the session user becomes `local@user` and the browser goes home; otherwise the session is unchanged and the browser goes to the provider |
| Auth.Logout | src/auth.py:134-137 | the requester is no longer logged in and the rest of the session is kept |
| Auth.RedirectUrl | src/auth.py:110-117 | host replaced by the destination; scheme `http` for a destination starting with `localhost`, the original scheme otherwise; path, parameters, query and fragment kept |
| Auth.Callback | src/auth.py:99-131 | redirects exactly when the state names another host (and leaves the session alone); a state whose `dstHost` is missing while this host is set crashes; with no state, or a matching `dstHost`, the provider's user information becomes the session user |
| Routes.RequesterEmail | src/routes.py:257-260 | the session email when logged in, the empty string for an anonymous requester |
| Routes.NoOverrideWithoutEmail | src/routes.py:189-191 | an anonymous requester or a session without email is never an override account |
| Routes.AuthorizeUser | src/routes.py:174-186 | authorised exactly when logged in, the user exists, its email is the requester's and the CSRF token is its secret; a crash exactly when logged in and the user does not exist |
| Routes.Readable | src/routes.py:561-567 | not readable exactly when the folder exists, is marked private, the owner exists, and the requester's email is not the owner's |
| Routes.Nickname | src/routes.py:303-305 | the text before the first `@`, or the whole address when it has none |
| Routes.EscapedHashRedirect | src/routes.py:289-292 | redirects exactly when the path starts with `/%23`, to the same URL with that prefix turned into `/#` |
| Routes.RedirectTargetIsFinal | src/routes.py:289-292 | the redirect target is never redirected again and differs from the request; only the path changes, and it keeps everything after the `/%23` prefix behind `/#` |
| Routes.FirstLine | src/routes.py:572-573 | the text before the first newline; with no newline, every character but the last |
| Routes.Classify | src/routes.py:572-582 | VPython exactly when the first line contains `ython`; else RapydScript exactly when it contains `apyd`; else CoffeeScript exactly when it contains `ofee`; else JavaScript |
| Routes.DownloadFile | src/routes.py:571-588 | file name `user_name` plus the extension of the language; the content is the source, with the VPython prelude in front for VPython |
| Routes.ArchiveEntry | src/routes.py:608-622 | each archived program's name begins with the program name; its content is the source, with the VPython prelude in front exactly for a VPython source |
| Routes.ArchiveMatchesDownload | src/routes.py:571-622 | the archive's copy of the language test agrees with the single download: the downloaded file is `user_` followed by the archive entry's name, with the same content |
| Routes.LoneFirstLine | src/routes.py:572-573 | for a source without a newline, `find` returns -1 and the slice keeps every character but the last |
| Routes.TerminatedFirstLine | src/routes.py:572-573 | a line followed by a newline is seen whole |
| Routes.MarkedVPython | src/routes.py:572-575 | a first line with `ython` in it is classified as VPython |
| Routes.LoneLineLosesLastCharacter | src/routes.py:572-582 | the one-line source `VPython` is classified as JavaScript, and `VPython` followed by a newline as VPython |
| Handlers.ParsePath | src/routes.py:236-262 | the names are the normalised captures, each valid, and exactly when no capture has a `/`; otherwise 400 "Invalid string in URL" |
| Handlers.UserRequest | src/routes.py:318-353 | a name with `/` is a bad path; GET succeeds exactly when the user exists, and 404 otherwise; PUT with no email is a 500, an existing name is refused with 403, and otherwise the user and its default folders are created; every refusal leaves the store unchanged |
| Handlers.LoginState | src/routes.py:295-308 | not logged in; a registered email gives its user name and secret; an unregistered one gives the nickname, only when no user has that email; a logged-in session without an email is a 500 |
| Handlers.ListRows | src/routes.py:375-383 | a crash exactly when a private folder meets a non-override requester and a missing owner; otherwise one visibility per listed name |
| Handlers.ListRowsAligned | src/routes.py:375-383 | every listed name is one of the user's folders and is paired with that folder's visibility |
| Handlers.ListRowsMembers | src/routes.py:377-382 | a name is listed exactly when its folder is public, or the requester is an override account or the owner |
| Handlers.ListRowsOrder | src/routes.py:375-383 | the listing keeps the query's order |
| Handlers.Listing | src/routes.py:371-384 | the reply for a user's folders: exactly the listable folders in query order with their visibilities, or 500 exactly when the owner is missing, the requester is not an override account and some folder is private |
| Handlers.FolderList | src/routes.py:357-384 | the store is unchanged; the listing holds exactly the user's listable folders in query order with their visibilities; 500 exactly in the missing-owner case |
| Handlers.FolderPut | src/routes.py:401-414 | succeeds exactly for an authorised owner and then stores the folder with the requested visibility (public when none is sent); a `/` is a bad path, 401 when unauthorised, a 500 when authorisation crashes; every refusal leaves the store unchanged |
| Handlers.FolderDelete | src/routes.py:416-428 | a `/` is a bad path; 403 exactly when the folder is missing, 409 exactly when it holds a program, and otherwise only that folder record is removed |
| Handlers.ProgramListAsWritten | src/routes.py:435-462 | a denied request (private folder, not the owner, owner not an override account) ends in 500; any other request lists the programs under the folder |
| Handlers.ProgramListDenialCrashes | src/routes.py:453-455 | an anonymous request for the listing of a private folder, whose owner exists with an email that is not an override account, gets 500 |
| Handlers.ProgramList | src/routes.py:435-462 | a denied request gets the JSON error naming the folder and no program data; any other request gets exactly the programs under the folder |
| Handlers.ProgramListAgreement | src/routes.py:453-462 | the two versions agree on every request that is not denied, and differ on every denied one |
| Handlers.ProgramGet | src/routes.py:479-498 | the store is unchanged; a `/` is a bad path; a private-folder error unless readable or the requester is an override account; a does-not-exist error for a missing program; otherwise the stored program |
| Handlers.ApplyChanges | src/routes.py:519-527 | only the source and screenshot present in the request are replaced (the screenshot as UTF-8 bytes); the description is reset and the timestamp refreshed |
| Handlers.ProgramPut | src/routes.py:500-529 | success holds exactly when no name has `/`, the owner is authorised and the program or its folder exists, and then stores the updated program; a `/` is a bad path, 401 when unauthorised, a 500 when authorisation crashes, 403 "No such folder" when neither exists; every refusal leaves the store unchanged |
| Adapter.DeleteAbsentProgram | src/routes.py:536-540 | deleting a program that is not stored changes nothing, so the handler's existence check does not change the outcome |
| Handlers.ProgramDelete | src/routes.py:531-540 | succeeds exactly for an authorised owner, and then removes the program if present and returns `{}` either way; a `/` is a bad path, 401 when unauthorised, a 500 when authorisation crashes; every refusal leaves the store unchanged |
| Handlers.ProgramDeleteIdempotent | src/routes.py:531-540 | deleting twice leaves the same store and reply as deleting once |
| Handlers.ProgramDownload | src/routes.py:547-630 | the store is unchanged; a `/` is a bad path; 405 exactly when the folder is not readable, with no override; 404 for a missing program; one file, or an archive named `user_folder.zip` holding exactly the folder's programs; 404 for any other option |
| Handlers.ProgramCopy | src/routes.py:634-676 | a `/` is a bad path; 404 without the destination folder, 409 when the destination name exists, 404 without the source; on success the destination has the source's text, screenshot and timestamp, `rename` removes exactly the source, and nothing else changes |
| Handlers.Transfer | src/routes.py:667-674 | the destination gets the source's text, screenshot and timestamp with an empty description; the source is gone exactly when renaming; users, folders and every other program are unchanged |
| Handlers.CopyOntoItselfRefused | src/routes.py:651-653 | copying a program onto its own name is refused with 409 and changes nothing |
| SettingCache.Get | src/ndb_models.py:84-97 | a cache hit returns the cached value without reading the store; a store hit is cached and returned; a missing setting is stored as `NOT SET` and returned uncached |
| SettingCache.CacheOnlyGrows | src/ndb_models.py:87-92 | no cached entry is ever removed or replaced |
| SettingCache.GetKeepsCoherent | src/ndb_models.py:84-97 | with a cache that agrees with the store, the store holds the name afterwards, the returned value is the stored one, and the cache still agrees |
| SettingCache.MissingSettingCachedOnSecondCall | src/ndb_models.py:90-95 | a missing setting is cached only on the second call, and the third call no longer reads the store; all three return `NOT SET` |
| SettingCache.GetStable | src/ndb_models.py:84-97 | repeating a call returns the same value |
| IdeShortcuts.LeadingSpaces | src/ideShortcuts.js:45 | the leading run of JavaScript whitespace, as long as possible |
| IdeShortcuts.TakeLine | src/ideShortcuts.js:63 | the longest prefix without a line terminator |
| IdeShortcuts.StripPrefix | src/ideShortcuts.js:39-41 | the prefix is removed when present, and the text is unchanged otherwise |
| IdeShortcuts.LcpFacts | src/ideShortcuts.js:46-50 | the common prefix length is a common prefix that cannot be extended |
| IdeShortcuts.LcpUnique | src/ideShortcuts.js:46-50 | any common prefix that cannot be extended has the length `Lcp` computes |
| IdeShortcuts.CommonPrefixLength | src/ideShortcuts.js:46-50 | the inner loop stops at the longest common prefix of the error text and the line |
| IdeShortcuts.ScanStep | src/ideShortcuts.js:51-54 | a strictly longer match replaces the best line, and the best line stays the first one with the highest positive score |
| IdeShortcuts.ScanResult | src/ideShortcuts.js:42-56 | the state the scan ends in gives the answer: 1 (`null + 1`) when no line scored, otherwise the best line's number |
| IdeShortcuts.FoundLineUnique | src/ideShortcuts.js:51-56 | the scores determine a single answer |
| IdeShortcuts.FindLine | src/ideShortcuts.js:37-57 | 1 when no line shares a first character; otherwise the 1-based number of a line with the highest score, and no earlier line scores as high |
| IdeShortcuts.Content | src/ideShortcuts.js:63-64 | the text kept has no line terminator |
| IdeShortcuts.ContentSteps | src/ideShortcuts.js:63-64 | the text kept is the leading whitespace skipped, then cut at the first line terminator |
| IdeShortcuts.InsertLineNumbers | src/ideShortcuts.js:58-75 | -1 or an index from 2 to length - 2; a returned index is the first counted line where the running total (3 per counted line; no `###` lines, lines in a block comment, blank or `#` lines) reaches `errline - 2`; -1 when there is none |
| IdeShortcuts.NoHitBeforeAll | src/ideShortcuts.js:62-73 | the loop's record of lines that did not return covers every earlier line |
| IdeShortcuts.Property | src/ideShortcuts.js:103 | for a key that no JavaScript prototype defines, such as `screenshot` or `autoscreenshot`, a property is defined exactly when the value is an object holding that key |
| IdeShortcuts.SendMessage | src/ideShortcuts.js:31-36 | queued while the queue exists, posted otherwise |
| IdeShortcuts.SendAll | src/ideShortcuts.js:96-99 | a run of messages is queued or posted in order |
| IdeShortcuts.HandshakeIsReady | src/ideShortcuts.js:89-94 | accepted as handshake exactly when the message is `{ready: true}` and nothing else |
| IdeShortcuts.Flush | src/ideShortcuts.js:95-100 | the frame becomes ready, the queue is disabled, and the queued messages are posted after the earlier ones in order |
| IdeShortcuts.Receive | src/ideShortcuts.js:76-106 | messages from another origin or that do not parse change nothing; before the handshake only `{ready: true}` is accepted and it flushes the queue; afterwards a screenshot is uploaded exactly under the upload rule, and any other parsed message, `null` included, changes nothing |
| IdeShortcuts.QueueKeepsOrder | src/ideShortcuts.js:89-100 | messages sent before and after the handshake reach the frame in the order they were sent |
| IdeShortcuts.NothingPostedBeforeHandshake | src/ideShortcuts.js:89-95 | before the handshake any other message changes nothing |
| IdeShortcuts.AutoScreenshotOnce | src/ideShortcuts.js:103-106 | an automatic screenshot is uploaded only while none exists, so a second one changes nothing; a manual one is uploaded even when one exists |
| Strs.Find | src/routes.py:572 | the first position where the text occurs, and none exactly when it does not occur |
| Strs.SplitChar | src/mongo_models.py:96 | at least one part, none containing the separator, and the whole text when the separator is absent |
| Strs.SplitJoin | src/mongo_models.py:96-99 | splitting the `/`-join of separator-free parts gives the parts back |

## Left out

- Flask plumbing: routing, `make_response`, `send_from_directory`, cache headers, the `ide.js` module cache, `get_url_root` and template rendering.
- Persistence libraries: the NDB client, the WSGI middleware, bunnet documents and collections, and `BunnetKey.get`/`delete`. The store is a value of three maps.
- The Mongo adapter defines only `__init__` in the source. Only the choice of adapter (`SetupDB`) is modelled.
- Adapter.SetupDB: the Mongo adapter overrides none of the abstract methods of `DBGlue` (src/db_translate.py:9-40, 97-99). Instantiating it therefore raises a TypeError, so with `MONGO_URL` set the module fails at import. The model returns the Mongo choice, which the code evidently means.
- OAuth through the identity provider, and the base64/JSON encoding of the `state` parameter. The callback takes the decoded state and the provider's user information as parameters.
- `datetime.now()` and `os.urandom`: the timestamp and the new user's secret are parameters.
- Building the zip archive: `ProgramDownload` returns the archive's entries as a map from program name to file.
- The JSON rendering of program listings and program data. The reply carries the stored records, not the decoded screenshot text or the printed timestamp.
- The `/api/user` user count and `is_running_locally`, which only pass values through.
- The JSON body of folder and program `PUT` requests is taken already decoded. For the folder `PUT`, a body that is not JSON, or not an object, would be a 500, since `.get` is called on it.
- Handlers.ProgramPut: the body is modelled as an object whose `source` and `screenshot` are strings when present. The source tests `"source" in changes`, which on a list or a string is a membership or substring test. So `program=[]` or `program="abc"` counts as no changes, and the program is created or refreshed with `{}`. `program="source"` raises a TypeError (500). `{"source": null}` stores None as the source, and a later download crashes on it. `{"screenshot": 5}` raises an AttributeError (500). A body that is not JSON is a 500.
- IdeShortcuts.Property: only own keys of objects are modelled. In JavaScript, keys defined by a prototype are also found, for example `"abc"["length"]`, `[]["length"]` and `({})["toString"]`. The page reads only `screenshot` and `autoscreenshot`, which no prototype defines.
- Adapter.GetUser: when several users share an email, which one the datastore query returns is not modelled; the model picks any of them.
- Handlers.FolderList: the order in which the datastore returns a user's folders is a parameter. The listing keeps that order.
- Handlers.FolderPut: `new_folder` is called with a keyword it does not accept, and its body uses a name that is never defined. The model stores the folder with the requested visibility, which the call evidently means.
- Adapter.NewUserFolders: the property assumes that no folders are already stored under the new user's name. The source does not rule such stray folders out: its own TODO at src/routes.py:346 says so. With stray folders present, the new user's listing also holds them.
- Adapter.NewProgram: `new_program` is not defined, so the model gives a new program an empty source. An NDB record created without a source would hold None (src/ndb_models.py:69). The program GET reads that as `''` (src/routes.py:497), but a download calls `source.find` (src/routes.py:571) and fails with a 500. The model's download instead returns an empty JavaScript file for a program created by PUT without a source.
- Handlers.ProgramCopy: the check of the `new_program` result (`program copy failed`) cannot fail, since `new_program` always returns a record, so that branch is absent.
- Keys.MakeKey: an empty argument list is rejected too, because a key must have at least one pair.
- UrlNames.Utf8: surrogate code points, which Python strings can hold and `quote` rejects, are not Dafny characters.
- UrlNames.Quote: only the `quote(c)` call on a single character is modelled: its UTF-8 bytes become `%XX`, and `/` is kept.
- IdeShortcuts.FindLine: JavaScript's `charAt` compares UTF-16 code units, and the model compares Unicode scalar values. A character outside the Basic Multilingual Plane is two code units there and one character here. For example, with error text `😀` and lines `x`, `😁`, the code answers 2, because the high surrogates agree, and the model answers 1.
- IdeShortcuts.StripPrefix: the indentation string becomes a regular expression in the source. The model treats it as plain text, which is the same when it holds only spaces.
- IdeShortcuts.Receive: the error dialog, the regular-expression rewriting of error messages, key-event forwarding and the screenshot button set-up are jQuery and DOM work. `postMessage` itself is a list of posted messages.

## Findings

| source | as written | input that shows it | evidently intended | confidence | as-written member | corrected member |
|---|---|---|---|---|---|---|
| src/routes.py:453-455 | the denial branch of the program listing builds its reply from `user`, a name `ApiUserFolderPrograms` never defines, so it raises a NameError | an anonymous `GET /api/user/alice/folder/Private/program/` where `Private` is private and `alice` exists | a JSON reply naming the folder with the private-folder error message, as the single-program `GET` does | high, not executed | Handlers.ProgramListAsWritten, Handlers.ProgramListDenialCrashes | Handlers.ProgramList |

=== FILE: adapter.dfy ===
/** The storage adapter of src/db_translate.py over an abstract store: users
    by name, folders by (user, folder) and programs by (user, folder, program),
    which is the ancestor-keyed layout `User/Folder/Program`. */
module Adapter {
  import opened Wrappers
  import opened Schema
  import Keys

  datatype FolderId = FolderId(user: string, folder: string)
  datatype ProgramId = ProgramId(user: string, folder: string, program: string)

  datatype Store = Store(users: map<string, User>,
                         folders: map<FolderId, Folder>,
                         programs: map<ProgramId, Program>)

  /** The ancestor-keyed identity of each record. */
  function UserKey(u: string): Keys.Key {
    [Keys.Pair(Keys.User, u)]
  }

  function FolderKey(id: FolderId): Keys.Key {
    [Keys.Pair(Keys.User, id.user), Keys.Pair(Keys.Folder, id.folder)]
  }

  function ProgramKey(id: ProgramId): Keys.Key {
    [Keys.Pair(Keys.User, id.user), Keys.Pair(Keys.Folder, id.folder),
     Keys.Pair(Keys.Program, id.program)]
  }

  /** `a` is `k` or one of its ancestors: an ancestor query for `a` matches `k`. */
  predicate IsAncestor(a: Keys.Key, k: Keys.Key) {
    |a| <= |k| && k[..|a|] == a
  }

  /** A user is an ancestor of exactly its own folders. */
  lemma UserAncestorOfFolders(u: string)
    ensures forall id :: IsAncestor(UserKey(u), FolderKey(id)) <==> id.user == u
  {
    forall id ensures IsAncestor(UserKey(u), FolderKey(id)) <==> id.user == u {
      if IsAncestor(UserKey(u), FolderKey(id)) {
        assert FolderKey(id)[..1][0] == FolderKey(id)[0];
      }
    }
  }

  /** A folder is an ancestor of exactly the programs stored under it. */
  lemma FolderAncestorOfPrograms(fid: FolderId)
    ensures forall id :: IsAncestor(FolderKey(fid), ProgramKey(id)) <==>
                         id.user == fid.user && id.folder == fid.folder
  {
    forall id ensures IsAncestor(FolderKey(fid), ProgramKey(id)) <==>
                      id.user == fid.user && id.folder == fid.folder {
      if IsAncestor(FolderKey(fid), ProgramKey(id)) {
        assert ProgramKey(id)[..2][0] == ProgramKey(id)[0];
        assert ProgramKey(id)[..2][1] == ProgramKey(id)[1];
      }
    }
  }

  /** `get_id(obj)`: the name in the last pair of the record's key. */
  function GetId(k: Keys.Key): (name: string)
    ensures exists kind :: k == k[..|k| - 1] + [Keys.Pair(kind, name)]
  {
    assert k == k[..|k| - 1] + [k[|k| - 1]];
    k[|k| - 1].name
  }

  lemma GetIdOfKeys(u: string, fid: FolderId, pid: ProgramId)
    ensures GetId(UserKey(u)) == u
    ensures GetId(FolderKey(fid)) == fid.folder
    ensures GetId(ProgramKey(pid)) == pid.program
  {
  }

  /** `get_user(email)`: some user whose email is `email`, if there is one. The
      datastore's choice among several is not modelled. */
  ghost function GetUser(st: Store, email: Option<string>): (r: Option<string>)
    ensures r.Some? ==> r.value in st.users && email == Some(st.users[r.value].email)
    ensures r.None? <==> forall u :: u in st.users ==> email != Some(st.users[u].email)
  {
    if exists u :: u in st.users && email == Some(st.users[u].email) then
      var u :| u in st.users && email == Some(st.users[u].email);
      Some(u)
    else
      None
  }

  /** `get_user_byusername(username)`: the user whose key is `username`. */
  function GetUserByUsername(st: Store, username: string): (r: Option<User>)
    ensures r.Some? <==> username in st.users
    ensures r.Some? ==> r.value == st.users[username]
  {
    if username in st.users then Some(st.users[username]) else None
  }

  /** `folders(u)`: the folders under the ancestor `User u`, by name. */
  function Folders(st: Store, u: string): (r: map<string, Folder>)
    ensures forall id :: id in st.folders && IsAncestor(UserKey(u), FolderKey(id)) ==>
              id.folder in r && r[id.folder] == st.folders[id]
    ensures forall f :: f in r ==> FolderId(u, f) in st.folders && IsAncestor(UserKey(u), FolderKey(FolderId(u, f)))
  {
    UserAncestorOfFolders(u);
    map id | id in st.folders && id.user == u :: id.folder := st.folders[id]
  }

  /** `folder(u, f)`: the folder reached by the chain `User u / Folder f`. */
  function GetFolder(st: Store, u: string, f: string): (r: Option<Folder>)
    ensures r.Some? <==> f in Folders(st, u)
    ensures r.Some? ==> r.value == Folders(st, u)[f]
  {
    if FolderId(u, f) in st.folders then Some(st.folders[FolderId(u, f)]) else None
  }

  /** `programs(u, f)`: the programs under the chain `User u / Folder f`, by
      name. The folder record itself need not exist. */
  function Programs(st: Store, u: string, f: string): (r: map<string, Program>)
    ensures forall id :: id in st.programs && IsAncestor(FolderKey(FolderId(u, f)), ProgramKey(id)) ==>
              id.program in r && r[id.program] == st.programs[id]
    ensures forall p :: p in r ==> ProgramId(u, f, p) in st.programs
  {
    FolderAncestorOfPrograms(FolderId(u, f));
    map id | id in st.programs && id.user == u && id.folder == f :: id.program := st.programs[id]
  }

  /** `program(u, f, p)`. */
  function GetProgram(st: Store, u: string, f: string, p: string): (r: Option<Program>)
    ensures r.Some? <==> p in Programs(st, u, f)
    ensures r.Some? ==> r.value == Programs(st, u, f)[p]
  {
    if ProgramId(u, f, p) in st.programs then Some(st.programs[ProgramId(u, f, p)]) else None
  }

  /** The two default folders every new user gets. */
  const MyPrograms := "MyPrograms"
  const Private := "Private"

  /** `new_user(u, email, secret)`: the user record plus `MyPrograms` (public)
      and `Private` (not public) under it; programs are not touched. */
  function NewUser(st: Store, u: string, email: string, secret: string, now: int): (r: Store)
    ensures r.users.Keys == st.users.Keys + {u}
    ensures GetUserByUsername(r, u) == Some(User(email, secret, now))
    ensures forall v :: v != u && v in st.users ==> r.users[v] == st.users[v]
    ensures r.programs == st.programs
  {
    st.(users := st.users[u := User(email, secret, now)],
        folders := st.folders[FolderId(u, MyPrograms) := Folder(Some(true))]
                             [FolderId(u, Private) := Folder(Some(false))])
  }

  /** Name `f` is in `u`'s listing exactly when the record `(u, f)` exists,
      and is listed with that record. */
  lemma FoldersAt(st: Store, u: string, f: string)
    ensures f in Folders(st, u) <==> FolderId(u, f) in st.folders
    ensures f in Folders(st, u) ==> Folders(st, u)[f] == st.folders[FolderId(u, f)]
  {
    if FolderId(u, f) in st.folders {
      assert FolderId(u, f).folder in Folders(st, u);
    }
  }

  /** Adding one folder record changes the listing of its own user only. */
  lemma FoldersAfterInsert(st: Store, fid: FolderId, x: Folder, u: string)
    ensures Folders(st.(folders := st.folders[fid := x]), u)
            == if fid.user == u then Folders(st, u)[fid.folder := x] else Folders(st, u)
  {
    var st' := st.(folders := st.folders[fid := x]);
    var r := Folders(st', u);
    var want := if fid.user == u then Folders(st, u)[fid.folder := x] else Folders(st, u);
    forall f ensures (f in r <==> f in want) && (f in r ==> r[f] == want[f]) {
      FoldersAt(st', u, f);
      FoldersAt(st, u, f);
    }
    assert r == want;
  }

  /** A user created with no folders of its own ends up with exactly the two
      defaults; every other user's folders are unchanged. */
  lemma NewUserFolders(st: Store, u: string, email: string, secret: string, now: int)
    requires Folders(st, u) == map[]
    ensures Folders(NewUser(st, u, email, secret, now), u)
            == map[MyPrograms := Folder(Some(true)), Private := Folder(Some(false))]
    ensures forall v :: v != u ==> Folders(NewUser(st, u, email, secret, now), v) == Folders(st, v)
  {
    var st1 := st.(users := st.users[u := User(email, secret, now)]);
    assert Folders(st1, u) == Folders(st, u);
    var st2 := st1.(folders := st1.folders[FolderId(u, MyPrograms) := Folder(Some(true))]);
    var st3 := st2.(folders := st2.folders[FolderId(u, Private) := Folder(Some(false))]);
    assert st3 == NewUser(st, u, email, secret, now);
    FoldersAfterInsert(st1, FolderId(u, MyPrograms), Folder(Some(true)), u);
    FoldersAfterInsert(st2, FolderId(u, Private), Folder(Some(false)), u);
    forall v | v != u ensures Folders(st3, v) == Folders(st, v) {
      FoldersAfterInsert(st1, FolderId(u, MyPrograms), Folder(Some(true)), v);
      FoldersAfterInsert(st2, FolderId(u, Private), Folder(Some(false)), v);
      assert Folders(st1, v) == Folders(st, v);
    }
  }

  /** `new_folder`: a folder record `(u, f)` with the given visibility. */
  function NewFolder(st: Store, u: string, f: string, isPublic: Option<bool>): (r: Store)
    ensures GetFolder(r, u, f) == Some(Folder(isPublic))
    ensures r.users == st.users && r.programs == st.programs
    ensures forall id :: id != FolderId(u, f) ==>
              (id in r.folders <==> id in st.folders) && (id in r.folders ==> r.folders[id] == st.folders[id])
  {
    st.(folders := st.folders[FolderId(u, f) := Folder(isPublic)])
  }

  /** `delete_folder(folder)`: removes the folder's own key only. */
  function DeleteFolder(st: Store, id: FolderId): (r: Store)
    ensures id !in r.folders
    ensures r.folders.Keys == st.folders.Keys - {id}
    ensures forall k :: k in r.folders ==> r.folders[k] == st.folders[k]
    ensures r.users == st.users && r.programs == st.programs
  {
    st.(folders := st.folders - {id})
  }

  /** Deleting a folder does not cascade: the programs under it stay listed. */
  lemma DeleteFolderKeepsPrograms(st: Store, id: FolderId, u: string, f: string)
    ensures Programs(DeleteFolder(st, id), u, f) == Programs(st, u, f)
  {
  }

  /** `new_program(folder, name)`: an in-memory record with empty source; it is
      stored only by `PutProgram`. */
  function NewProgram(): Program {
    Program("", "", None, None)
  }

  /** `set_datetime(program, t)`. */
  function SetDatetime(p: Program, t: int): (r: Program)
    ensures r.datetime == Some(t)
    ensures r.source == p.source && r.screenshot == p.screenshot && r.description == p.description
  {
    p.(datetime := Some(t))
  }

  /** `put_program(program)`: stores the record under its key, replacing any
      previous one. */
  function PutProgram(st: Store, id: ProgramId, p: Program): (r: Store)
    ensures GetProgram(r, id.user, id.folder, id.program) == Some(p)
    ensures r.users == st.users && r.folders == st.folders
    ensures forall k :: k != id ==>
              (k in r.programs <==> k in st.programs) && (k in r.programs ==> r.programs[k] == st.programs[k])
  {
    st.(programs := st.programs[id := p])
  }

  /** `delete_program(program)`. */
  function DeleteProgram(st: Store, id: ProgramId): (r: Store)
    ensures GetProgram(r, id.user, id.folder, id.program) == None
    ensures r.programs.Keys == st.programs.Keys - {id}
    ensures forall k :: k in r.programs ==> r.programs[k] == st.programs[k]
    ensures r.users == st.users && r.folders == st.folders
  {
    st.(programs := st.programs - {id})
  }

  /** Deleting a program that is not stored leaves the store as it was. */
  lemma DeleteAbsentProgram(st: Store, id: ProgramId)
    requires id !in st.programs
    ensures DeleteProgram(st, id) == st
  {
    assert st.programs - {id} == st.programs;
  }

  /** The two adapter implementations. */
  datatype Backend = Ndb | Mongo

  /** `setupDB()`: the Mongo adapter when `MONGO_URL` is set to a non-empty
      string, the NDB adapter otherwise (Python truthiness of the variable). */
  function SetupDB(mongoUrl: Option<string>): (b: Backend)
    ensures b == Mongo <==> mongoUrl.Some? && |mongoUrl.value| > 0
    ensures mongoUrl == None ==> b == Ndb
  {
    match mongoUrl
    case Some(url) => if url != "" then Mongo else Ndb
    case None => Ndb
  }
}

=== FILE: auth.dfy ===
/** Session and login decisions of src/auth.py. The OAuth exchange itself and
    the base64/JSON encoding of the `state` parameter are outside the model:
    the callback receives the decoded state and the identity provider's user
    information as parameters. */
module Auth {
  import opened Wrappers
  import opened Strs

  /** The user information dictionary kept in the session. */
  type UserInfo = map<string, string>

  /** The Flask session: the `user` entry, and everything else it holds. */
  datatype Session = Session(user: Option<UserInfo>, other: map<string, string>)

  /** The six components `urllib.parse.urlparse` splits a URL into. */
  datatype Url = Url(scheme: string, netloc: string, path: string,
                     params: string, query: string, fragment: string)

  /** `GRL`: the running-locally flag computed once from the environment
      variable `GLOWSCRIPT_RUNNING_LOCALLY` (None when it is unset). */
  function RunningLocally(env: Option<string>): bool
  {
    match env
    case None => false
    case Some(v) => Lower(v) != "false"
  }

  /** `v` spells `false` in any mix of cases. */
  predicate IsFalseAnyCase(v: string) {
    |v| == 5 && forall i :: 0 <= i < 5 ==> v[i] == "false"[i] || v[i] == "FALSE"[i]
  }

  /** The flag is off exactly when the variable is unset or says `false`
      ignoring case; any other value, the empty string included, turns it on. */
  lemma RunningLocallyCases(env: Option<string>)
    ensures !RunningLocally(env) <==> env.None? || IsFalseAnyCase(env.value)
  {
    if env.Some? {
      var v := env.value;
      if IsFalseAnyCase(v) {
        assert Lower(v) == "false";
      }
      if Lower(v) == "false" {
        forall i | 0 <= i < 5 ensures v[i] == "false"[i] || v[i] == "FALSE"[i] {
          assert LowerChar(v[i]) == "false"[i];
        }
      }
    }
  }

  /** `is_logged_in()`. */
  predicate IsLoggedIn(s: Session) {
    s.user.Some?
  }

  /** `get_user_info()`: the session's user information, or an empty dictionary. */
  function GetUserInfo(s: Session): (info: UserInfo)
    ensures IsLoggedIn(s) ==> info == s.user.value
    ensures !IsLoggedIn(s) ==> info == map[]
  {
    match s.user
    case Some(u) => u
    case None => map[]
  }

  /** `get_user_info().get('email')`. */
  function Email(s: Session): (e: Option<string>)
    ensures e.Some? <==> "email" in GetUserInfo(s)
    ensures e.Some? ==> e.value == GetUserInfo(s)["email"]
  {
    var info := GetUserInfo(s);
    if "email" in info then Some(info["email"]) else None
  }

  /** Where a login or callback sends the browser. */
  datatype Response =
    | RedirectHome                            // redirect('/')
    | RedirectTo(url: Url)                    // redirect to another host
    | ToProvider(dstHost: Option<string>)     // off to the OAuth provider, state naming this host
    | Crash                                   // an exception: status 500

  /** The email the local login uses. */
  const LocalEmail := "local@user"

  /** `login()`: when running locally the session user becomes
      `{'email': 'local@user'}` and the browser goes home; otherwise the browser
      goes to the provider and the session is unchanged. */
  function Login(s: Session, runningLocally: bool, host: Option<string>): (r: (Session, Response))
    ensures runningLocally ==> IsLoggedIn(r.0) && Email(r.0) == Some(LocalEmail) && r.1 == RedirectHome
    ensures !runningLocally ==> r.0 == s && r.1 == ToProvider(host)
    ensures r.0.other == s.other
  {
    if runningLocally then (s.(user := Some(map["email" := LocalEmail])), RedirectHome)
    else (s, ToProvider(host))
  }

  /** `logout()`: pops `user`, leaves the rest of the session alone. */
  function Logout(s: Session): (r: Session)
    ensures !IsLoggedIn(r)
    ensures GetUserInfo(r) == map[]
    ensures r.other == s.other
  {
    s.(user := None)
  }

  /** The decoded `state` parameter of the callback. */
  datatype State = State(dstHost: Option<string>)

  /** The URL the callback redirects to: scheme `http` for a `localhost…`
      destination, the original scheme otherwise, the destination as host, and
      the original path, parameters, query and fragment. */
  function RedirectUrl(orig: Url, dstHost: string): (u: Url)
    ensures u.netloc == dstHost
    ensures u.scheme == (if "localhost" <= dstHost then "http" else orig.scheme)
    ensures u.path == orig.path && u.params == orig.params
    ensures u.query == orig.query && u.fragment == orig.fragment
  {
    var scheme := if "localhost" <= dstHost then "http" else orig.scheme;
    Url(scheme, dstHost, orig.path, orig.params, orig.query, orig.fragment)
  }

  /** `auth()`: with a state whose `dstHost` differs from this host the request
      is bounced there (a missing `dstHost` crashes on `startswith`); otherwise
      this is the final server and the provider's user information becomes the
      session user. */
  function Callback(s: Session, authHost: Option<string>, state: Option<State>,
                    requestUrl: Url, provided: UserInfo): (r: (Session, Response))
    ensures r.1.RedirectTo? <==> state.Some? && state.value.dstHost != authHost && state.value.dstHost.Some?
    ensures r.1.RedirectTo? ==> r.0 == s && r.1.url == RedirectUrl(requestUrl, state.value.dstHost.value)
    ensures r.1 == RedirectHome <==> state.None? || state.value.dstHost == authHost
    ensures r.1 == RedirectHome ==> r.0 == s.(user := Some(provided))
    ensures state.Some? && state.value.dstHost.None? && authHost.Some? ==> r == (s, Crash)
  {
    match state
    case Some(st) =>
      if st.dstHost != authHost then
        match st.dstHost
        case None => (s, Crash)
        case Some(dst) => (s, RedirectTo(RedirectUrl(requestUrl, dst)))
      else (s.(user := Some(provided)), RedirectHome)
    case None => (s.(user := Some(provided)), RedirectHome)
  }
}

=== FILE: handlers.dfy ===
/** The API request handlers of src/routes.py as transitions of the abstract
    store: each takes the store and the request and returns the new store and
    the reply. The raw path captures go through the normaliser first, as
    `parseUrlPath` does. */
module Handlers {
  import opened Wrappers
  import opened Schema
  import opened Adapter
  import opened Auth
  import opened Routes
  import UrlNames

  /** What a handler reads from the HTTP request besides the path. */
  datatype Request = Request(session: Session, csrfToken: Option<string>)

  /** JSON bodies of the 200 replies. */
  datatype Body =
    | Empty
    | UserFolders(user: string, folders: seq<string>, publics: seq<Option<bool>>)
    | FolderPrograms(user: string, folder: string, programs: map<string, Program>)
    | FolderNotice(user: string, folder: string, error: string)
    | ProgramNotice(user: string, folder: string, name: string, error: string)
    | ProgramData(user: string, folder: string, name: string, program: Program)
    | Attachment(file: Download)
    | Archive(fileName: string, entries: map<string, Download>)
    | LoggedIn(username: string, secret: string)
    | Unregistered(suggestedName: string)
    | NotLoggedIn

  /** A reply: a JSON body, or a status code with its message. Python
      exceptions escaping a handler are status 500. */
  datatype Reply = Ok(body: Body) | Fail(code: int, message: string)

  datatype Outcome = Outcome(store: Store, reply: Reply)

  const InternalError := Fail(500, "Internal Server Error")

  /** The name part of `parseUrlPath` on the captured path segments. */
  function ParsePath(raw: seq<string>): (r: Result<seq<string>, Reply>)
    ensures r.Success? <==> forall k :: 0 <= k < |raw| ==> '/' !in raw[k]
    ensures r.Success? ==> |r.value| == |raw|
    ensures r.Success? ==> forall k :: 0 <= k < |raw| ==>
              r.value[k] == UrlNames.Normalize(raw[k]) && UrlNames.ValidName(r.value[k])
    ensures r.Failure? ==> r.error == Fail(400, "Invalid string in URL")
  {
    match UrlNames.ParseNames(Some(raw))
    case Success(ns) => Success(ns)
    case Failure(msg) => Failure(Fail(400, msg))
  }

  /** The reply of every handler whose path has a segment `ParsePath` rejects:
      a captured segment holding `/`. */
  const BadPath := Fail(400, "Invalid string in URL")

  /** The reply for a failed `authorize_user`. */
  function Refusal(a: Authorization): Reply
    requires a != Authorized
  {
    if a == Unauthorized then Fail(401, "Unauthorized") else InternalError
  }

  // ---------------------------------------------------------------------
  // GET/PUT /api/user/<username>
  // ---------------------------------------------------------------------

  datatype Method = Get | Put

  /** `ApiUser`: GET tells whether the user exists; PUT by a requester with a
      non-empty email creates the user with its two default folders unless the
      name is taken. An anonymous PUT (empty email) makes the view return
      nothing, which is status 500. */
  function UserRequest(st: Store, req: Request, rawUser: string, verb: Method,
                       secret: string, now: int): (r: Outcome)
    ensures !r.reply.Ok? ==> r.store == st
    ensures verb == Get ==> r.store == st
    ensures verb == Get && '/' !in rawUser ==>
              (r.reply.Ok? <==> UrlNames.Normalize(rawUser) in st.users)
    ensures verb == Put && r.reply.Ok? ==>
              var u := UrlNames.Normalize(rawUser);
              && u !in st.users
              && RequesterEmail(req.session).Some? && RequesterEmail(req.session).value != ""
              && r.store == NewUser(st, u, RequesterEmail(req.session).value, secret, now)
    ensures verb == Put && '/' !in rawUser && UrlNames.Normalize(rawUser) in st.users ==>
              !r.reply.Ok?
    ensures '/' in rawUser ==> r == Outcome(st, BadPath)
    ensures verb == Get && '/' !in rawUser ==>
              r.reply == if UrlNames.Normalize(rawUser) in st.users then Ok(Empty)
                         else Fail(404, "Unknown username")
    ensures verb == Put && '/' !in rawUser ==>
              var u := UrlNames.Normalize(rawUser);
              var email := RequesterEmail(req.session);
              && (email.None? || email.value == "" ==> r.reply == InternalError)
              && (email.Some? && email.value != "" && u in st.users ==>
                    r.reply == Fail(403, "user already exists"))
              && (email.Some? && email.value != "" && u !in st.users ==>
                    r == Outcome(NewUser(st, u, email.value, secret, now), Ok(Empty)))
  {
    if '/' in rawUser then Outcome(st, BadPath)
    else
      var u := UrlNames.Normalize(rawUser);
      var owner := GetUserByUsername(st, u);
      match verb
      case Get =>
        if owner.None? then Outcome(st, Fail(404, "Unknown username")) else Outcome(st, Ok(Empty))
      case Put =>
        var email := RequesterEmail(req.session);
        if email.Some? && email.value != "" then
          if owner.Some? then Outcome(st, Fail(403, "user already exists"))
          else Outcome(NewUser(st, u, email.value, secret, now), Ok(Empty))
        else Outcome(st, InternalError)
  }

  // ---------------------------------------------------------------------
  // GET /api/login
  // ---------------------------------------------------------------------

  /** `api_login`: a logged-in requester with a registered email gets its user
      name and secret, an unregistered one a suggested name; a session without
      an email fails on `"@" in None`. */
  ghost function LoginState(st: Store, s: Session): (r: Reply)
    ensures !IsLoggedIn(s) ==> r == Ok(NotLoggedIn)
    ensures r.Ok? && r.body.LoggedIn? ==>
              r.body.username in st.users && Email(s) == Some(st.users[r.body.username].email)
              && r.body.secret == st.users[r.body.username].secret
    ensures r.Ok? && r.body.Unregistered? ==>
              Email(s).Some? && r.body.suggestedName == Nickname(Email(s).value)
              && forall u :: u in st.users ==> st.users[u].email != Email(s).value
    ensures IsLoggedIn(s) && Email(s).Some? ==> r.Ok? && (r.body.LoggedIn? || r.body.Unregistered?)
    ensures IsLoggedIn(s) && Email(s).None? ==> r == InternalError
  {
    if !IsLoggedIn(s) then Ok(NotLoggedIn)
    else
      var email := Email(s);
      match GetUser(st, email)
      case Some(name) => Ok(LoggedIn(name, st.users[name].secret))
      case None =>
        match email
        case None => InternalError
        case Some(e) => Ok(Unregistered(Nickname(e)))
  }

  // ---------------------------------------------------------------------
  // GET /api/user/<username>/folder/
  // ---------------------------------------------------------------------

  /** `order` lists each name of `names` exactly once: the order in which the
      datastore query yields the folders. */
  predicate Enumerates(order: seq<string>, names: set<string>) {
    && (forall i, j :: 0 <= i < j < |order| ==> order[i] != order[j])
    && (forall i :: 0 <= i < |order| ==> order[i] in names)
    && (forall n :: n in names ==> n in order)
  }

  /** `a` is `b` with some elements left out, the rest in the same order. */
  predicate IsSubsequence(a: seq<string>, b: seq<string>)
    decreases |b|
  {
    if a == [] then true
    else if b == [] then false
    else if a[0] == b[0] then IsSubsequence(a[1..], b[1..])
    else IsSubsequence(a, b[1..])
  }

  /** A folder appears in the listing: it is not private, or the requester is
      an override account or the owner. */
  predicate Listed(fd: Folder, owner: Option<User>, requester: Option<string>) {
    fd.isPublic != Some(false) || Override(requester)
    || (owner.Some? && requester == Some(owner.value.email))
  }

  /** The listing loop of `ApiUserFolders` over the query's rows; None when a
      private folder meets a requester who is not an override account and the
      owner record is missing (`folder_owner.email` on `None`). */
  function ListRows(order: seq<string>, folders: map<string, Folder>, owner: Option<User>,
                    requester: Option<string>): (r: Option<(seq<string>, seq<Option<bool>>)>)
    requires forall i :: 0 <= i < |order| ==> order[i] in folders
    ensures r.None? <==>
              owner.None? && !Override(requester)
              && exists i :: 0 <= i < |order| && folders[order[i]].isPublic == Some(false)
    ensures r.Some? ==> |r.value.0| == |r.value.1|
    decreases |order|
  {
    if order == [] then Some(([], []))
    else
      var f := order[0];
      var fd := folders[f];
      var rest := ListRows(order[1..], folders, owner, requester);
      assert forall i :: 1 <= i < |order| ==> order[i] == order[1..][i - 1];
      if fd.isPublic == Some(false) && !Override(requester) && owner.None? then None
      else if rest.None? then None
      else if !Listed(fd, owner, requester) then rest
      else Some(([f] + rest.value.0, [fd.isPublic] + rest.value.1))
  }

  /** Every name of `rows` is a folder, shown with that folder's visibility. */
  predicate Aligned(rows: Option<(seq<string>, seq<Option<bool>>)>, folders: map<string, Folder>) {
    rows.Some? ==>
      && |rows.value.0| == |rows.value.1|
      && forall i :: 0 <= i < |rows.value.0| ==>
           rows.value.0[i] in folders && rows.value.1[i] == folders[rows.value.0[i]].isPublic
  }

  /** Every listed name is a folder, shown with that folder's visibility. */
  lemma {:induction false} ListRowsAligned(order: seq<string>, folders: map<string, Folder>, owner: Option<User>,
                                           requester: Option<string>)
    requires forall i :: 0 <= i < |order| ==> order[i] in folders
    ensures Aligned(ListRows(order, folders, owner, requester), folders)
    decreases |order|
  {
    if order != [] {
      assert forall i :: 1 <= i < |order| ==> order[i] == order[1..][i - 1];
      ListRowsAligned(order[1..], folders, owner, requester);
      var r := ListRows(order, folders, owner, requester);
      var rest := ListRows(order[1..], folders, owner, requester);
      if r.Some? && !Listed(folders[order[0]], owner, requester) {
        assert r == rest;
      } else if r.Some? {
        assert r.value.0 == [order[0]] + rest.value.0;
        assert r.value.1 == [folders[order[0]].isPublic] + rest.value.1;
        forall i | 1 <= i < |r.value.0|
          ensures r.value.0[i] == rest.value.0[i - 1] && r.value.1[i] == rest.value.1[i - 1]
        {
        }
      }
    }
  }

  /** The listing holds exactly the rows whose folder is listed. */
  lemma {:induction false} ListRowsMembers(order: seq<string>, folders: map<string, Folder>, owner: Option<User>,
                                           requester: Option<string>)
    requires forall i :: 0 <= i < |order| ==> order[i] in folders
    ensures var r := ListRows(order, folders, owner, requester);
            r.Some? ==> forall n :: n in r.value.0 <==> n in order && Listed(folders[n], owner, requester)
    decreases |order|
  {
    if order != [] {
      assert forall i :: 1 <= i < |order| ==> order[i] == order[1..][i - 1];
      ListRowsMembers(order[1..], folders, owner, requester);
      assert order == [order[0]] + order[1..];
    }
  }

  /** The listing keeps the rows in query order. */
  lemma {:induction false} ListRowsOrder(order: seq<string>, folders: map<string, Folder>, owner: Option<User>,
                                         requester: Option<string>)
    requires forall i :: 0 <= i < |order| ==> order[i] in folders
    requires forall i, j :: 0 <= i < j < |order| ==> order[i] != order[j]
    ensures var r := ListRows(order, folders, owner, requester);
            r.Some? ==> IsSubsequence(r.value.0, order)
    decreases |order|
  {
    if order != [] {
      assert forall i :: 1 <= i < |order| ==> order[i] == order[1..][i - 1];
      ListRowsOrder(order[1..], folders, owner, requester);
      var r := ListRows(order, folders, owner, requester);
      var rest := ListRows(order[1..], folders, owner, requester);
      if r.Some? {
        if Listed(folders[order[0]], owner, requester) {
          assert r.value.0[1..] == rest.value.0;
        } else {
          ListRowsMembers(order[1..], folders, owner, requester);
          assert rest.value.0 != [] ==> rest.value.0[0] in order[1..];
          SubsequenceOfTail(rest.value.0, order);
        }
      }
    }
  }

  /** A subsequence of the tail that does not start with the head is a
      subsequence of the whole. */
  lemma SubsequenceOfTail(a: seq<string>, b: seq<string>)
    requires |b| > 0 && IsSubsequence(a, b[1..])
    requires a == [] || a[0] != b[0]
    ensures IsSubsequence(a, b)
  {
  }

  /** The reply of `ApiUserFolders` for the folders `fs` of user `u` met in
      query order `order`, the owner record and the requester's email. */
  function Listing(u: string, order: seq<string>, fs: map<string, Folder>, owner: Option<User>,
                   requester: Option<string>): (reply: Reply)
    requires Enumerates(order, fs.Keys)
    ensures reply.Ok? || reply == InternalError
    ensures reply.Ok? ==>
              && reply.body.UserFolders?
              && reply.body.user == u
              && |reply.body.folders| == |reply.body.publics|
              && (forall i :: 0 <= i < |reply.body.folders| ==>
                    reply.body.folders[i] in fs && reply.body.publics[i] == fs[reply.body.folders[i]].isPublic)
              && (forall n :: n in reply.body.folders <==> n in fs && Listed(fs[n], owner, requester))
              && IsSubsequence(reply.body.folders, order)
    ensures reply == InternalError <==>
              owner.None? && !Override(requester) && exists n :: n in fs && fs[n].isPublic == Some(false)
  {
    match ListRows(order, fs, owner, requester)
    case None =>
      var i :| 0 <= i < |order| && fs[order[i]].isPublic == Some(false);
      InternalError
    case Some(rows) =>
      ListRowsAligned(order, fs, owner, requester);
      ListRowsMembers(order, fs, owner, requester);
      ListRowsOrder(order, fs, owner, requester);
      assert forall n :: n in fs && fs[n].isPublic == Some(false) ==> n in order;
      Ok(UserFolders(u, rows.0, rows.1))
  }

  /** `ApiUserFolders`: the user's folders in query order, each with its
      `isPublic`, leaving out private folders unless the requester is an
      override account or the owner. */
  function FolderList(st: Store, req: Request, rawUser: string, order: seq<string>): (r: Outcome)
    requires Enumerates(order, Folders(st, UrlNames.Normalize(rawUser)).Keys)
    ensures r.store == st
    ensures '/' in rawUser ==> r.reply == Fail(400, "Invalid string in URL")
    ensures r.reply.Ok? ==>
              var u := UrlNames.Normalize(rawUser);
              var owner := GetUserByUsername(st, u);
              var fs := Folders(st, u);
              && r.reply.body.UserFolders?
              && r.reply.body.user == u
              && |r.reply.body.folders| == |r.reply.body.publics|
              && (forall i :: 0 <= i < |r.reply.body.folders| ==>
                    r.reply.body.folders[i] in fs
                    && r.reply.body.publics[i] == fs[r.reply.body.folders[i]].isPublic)
              && (forall n :: n in r.reply.body.folders <==>
                    n in fs && Listed(fs[n], owner, RequesterEmail(req.session)))
              && IsSubsequence(r.reply.body.folders, order)
    ensures r.reply == InternalError <==>
              '/' !in rawUser && UrlNames.Normalize(rawUser) !in st.users
              && !Override(RequesterEmail(req.session))
              && exists n :: n in Folders(st, UrlNames.Normalize(rawUser))
                             && Folders(st, UrlNames.Normalize(rawUser))[n].isPublic == Some(false)
  {
    if '/' in rawUser then Outcome(st, BadPath)
    else
      var u := UrlNames.Normalize(rawUser);
      Outcome(st, Listing(u, order, Folders(st, u), GetUserByUsername(st, u), RequesterEmail(req.session)))
  }

  // ---------------------------------------------------------------------
  // PUT/DELETE /api/user/<username>/folder/<foldername>
  // ---------------------------------------------------------------------

  /** The visibility a folder PUT asks for: public unless the request's
      `program` value is JSON, in which case its `public` entry (None when the
      entry is absent). */
  function RequestedVisibility(body: Option<Option<bool>>): Option<bool> {
    match body
    case None => Some(true)
    case Some(v) => v
  }

  /** Folder PUT: an authorised owner creates (or overwrites) the folder; every
      refusal leaves the store unchanged. */
  function FolderPut(st: Store, req: Request, rawUser: string, rawFolder: string,
                     body: Option<Option<bool>>): (r: Outcome)
    ensures r.reply.Ok? <==>
              '/' !in rawUser && '/' !in rawFolder
              && AuthorizeUser(st, req.session, req.csrfToken, UrlNames.Normalize(rawUser)) == Authorized
    ensures r.reply.Ok? ==>
              r.reply.body == Empty
              && r.store == NewFolder(st, UrlNames.Normalize(rawUser), UrlNames.Normalize(rawFolder),
                                      RequestedVisibility(body))
    ensures !r.reply.Ok? ==> r.store == st
    ensures '/' !in rawUser && '/' !in rawFolder
            && AuthorizeUser(st, req.session, req.csrfToken, UrlNames.Normalize(rawUser)) == Unauthorized
            ==> r.reply == Fail(401, "Unauthorized")
    ensures '/' !in rawUser && '/' !in rawFolder
            && AuthorizeUser(st, req.session, req.csrfToken, UrlNames.Normalize(rawUser)) == AuthCrash
            ==> r.reply == InternalError
    ensures '/' in rawUser || '/' in rawFolder ==> r == Outcome(st, BadPath)
  {
    if '/' in rawUser || '/' in rawFolder then Outcome(st, BadPath)
    else
      var u := UrlNames.Normalize(rawUser);
      var f := UrlNames.Normalize(rawFolder);
      var a := AuthorizeUser(st, req.session, req.csrfToken, u);
      if a != Authorized then Outcome(st, Refusal(a))
      else Outcome(NewFolder(st, u, f, RequestedVisibility(body)), Ok(Empty))
  }

  /** Folder DELETE. The source performs no authorisation on this branch, so
      the request's session and token play no part: a missing folder is 403, a
      folder holding any program is 409, and otherwise only that folder's
      record is removed. */
  function FolderDelete(st: Store, rawUser: string, rawFolder: string): (r: Outcome)
    ensures !r.reply.Ok? ==> r.store == st
    ensures '/' !in rawUser && '/' !in rawFolder ==>
              var u := UrlNames.Normalize(rawUser);
              var f := UrlNames.Normalize(rawFolder);
              && (r.reply == Fail(403, "Not found") <==> GetFolder(st, u, f).None?)
              && (r.reply == Fail(409, "There are programs here") <==>
                    GetFolder(st, u, f).Some? && Programs(st, u, f) != map[])
              && (r.reply.Ok? <==> GetFolder(st, u, f).Some? && Programs(st, u, f) == map[])
              && (r.reply.Ok? ==> r.store == DeleteFolder(st, FolderId(u, f)))
    ensures '/' in rawUser || '/' in rawFolder ==> r == Outcome(st, BadPath)
  {
    if '/' in rawUser || '/' in rawFolder then Outcome(st, BadPath)
    else
      var u := UrlNames.Normalize(rawUser);
      var f := UrlNames.Normalize(rawFolder);
      if GetFolder(st, u, f).None? then Outcome(st, Fail(403, "Not found"))
      else if |Programs(st, u, f)| > 0 then Outcome(st, Fail(409, "There are programs here"))
      else Outcome(DeleteFolder(st, FolderId(u, f)), Ok(Empty))
  }

  // ---------------------------------------------------------------------
  // GET /api/user/<username>/folder/<foldername>/program/
  // ---------------------------------------------------------------------

  /** The denial test of `ApiUserFolderPrograms`: the folder is not readable and
      the OWNER's email (not the requester's) is not an override account. */
  predicate ListingDenied(st: Store, req: Request, u: string, f: string) {
    var owner := GetUserByUsername(st, u);
    !Readable(GetFolder(st, u, f), owner, RequesterEmail(req.session))
    && owner.Some? && !Override(Some(owner.value.email))
  }

  /** `ApiUserFolderPrograms` as written: the denial branch builds its reply
      from `user`, a name the function never defines, so a denied request ends
      in a NameError (status 500). */
  function ProgramListAsWritten(st: Store, req: Request, rawUser: string, rawFolder: string): (r: Outcome)
    ensures r.store == st
    ensures '/' !in rawUser && '/' !in rawFolder ==>
              var u := UrlNames.Normalize(rawUser);
              var f := UrlNames.Normalize(rawFolder);
              && (r.reply == InternalError <==> ListingDenied(st, req, u, f))
              && (!ListingDenied(st, req, u, f) ==> r.reply == Ok(FolderPrograms(u, f, Programs(st, u, f))))
  {
    if '/' in rawUser || '/' in rawFolder then Outcome(st, BadPath)
    else
      var u := UrlNames.Normalize(rawUser);
      var f := UrlNames.Normalize(rawFolder);
      if ListingDenied(st, req, u, f) then Outcome(st, InternalError)
      else Outcome(st, Ok(FolderPrograms(u, f, Programs(st, u, f))))
  }

  /** An anonymous request for the listing of a private folder crashes, for
      every owner whose email is set and is not an override account. */
  lemma ProgramListDenialCrashes(st: Store, rawUser: string, rawFolder: string)
    requires '/' !in rawUser && '/' !in rawFolder
    requires GetFolder(st, UrlNames.Normalize(rawUser), UrlNames.Normalize(rawFolder)) == Some(Folder(Some(false)))
    requires UrlNames.Normalize(rawUser) in st.users
    requires st.users[UrlNames.Normalize(rawUser)].email != ""
    requires !Override(Some(st.users[UrlNames.Normalize(rawUser)].email))
    ensures ProgramListAsWritten(st, Request(Session(None, map[]), None), rawUser, rawFolder).reply == InternalError
  {
    var anonymous := Request(Session(None, map[]), None);
    var u := UrlNames.Normalize(rawUser);
    assert RequesterEmail(anonymous.session) == Some("");
    assert ListingDenied(st, anonymous, u, UrlNames.Normalize(rawFolder));
  }

  /** The error text the denial branch evidently meant to send. */
  function PrivateFolderMessage(u: string, f: string): string {
    "The folder \"" + u + "/" + f + "\" is a private folder\nto which you do not have access."
  }

  /** `ApiUserFolderPrograms` as intended: a denied request gets the JSON error
      naming the folder and no program data; every other request gets the
      programs under the folder, whether or not the folder record exists. */
  function ProgramList(st: Store, req: Request, rawUser: string, rawFolder: string): (r: Outcome)
    ensures r.store == st
    ensures r.reply.Ok? && r.reply.body.FolderPrograms? ==>
              var u := UrlNames.Normalize(rawUser);
              var f := UrlNames.Normalize(rawFolder);
              && !ListingDenied(st, req, u, f)
              && r.reply.body == FolderPrograms(u, f, Programs(st, u, f))
    ensures '/' !in rawUser && '/' !in rawFolder ==>
              var u := UrlNames.Normalize(rawUser);
              var f := UrlNames.Normalize(rawFolder);
              && r.reply.Ok?
              && (ListingDenied(st, req, u, f) <==> r.reply.body == FolderNotice(u, f, PrivateFolderMessage(u, f)))
  {
    if '/' in rawUser || '/' in rawFolder then Outcome(st, BadPath)
    else
      var u := UrlNames.Normalize(rawUser);
      var f := UrlNames.Normalize(rawFolder);
      if ListingDenied(st, req, u, f) then Outcome(st, Ok(FolderNotice(u, f, PrivateFolderMessage(u, f))))
      else Outcome(st, Ok(FolderPrograms(u, f, Programs(st, u, f))))
  }

  /** The two versions differ only on denied requests. */
  lemma ProgramListAgreement(st: Store, req: Request, rawUser: string, rawFolder: string)
    requires '/' !in rawUser && '/' !in rawFolder
    ensures !ListingDenied(st, req, UrlNames.Normalize(rawUser), UrlNames.Normalize(rawFolder)) ==>
              ProgramList(st, req, rawUser, rawFolder) == ProgramListAsWritten(st, req, rawUser, rawFolder)
    ensures ListingDenied(st, req, UrlNames.Normalize(rawUser), UrlNames.Normalize(rawFolder)) ==>
              ProgramListAsWritten(st, req, rawUser, rawFolder).reply == InternalError
              && ProgramList(st, req, rawUser, rawFolder).reply.Ok?
  {
  }

  // ---------------------------------------------------------------------
  // GET/PUT/DELETE /api/user/<u>/folder/<f>/program/<p>
  // ---------------------------------------------------------------------

  /** A program may be read: its folder is readable to the requester, or the
      REQUESTER is an override account. */
  predicate MayRead(st: Store, req: Request, u: string, f: string) {
    Readable(GetFolder(st, u, f), GetUserByUsername(st, u), RequesterEmail(req.session))
    || Override(RequesterEmail(req.session))
  }

  function PrivateProgramMessage(p: string): string {
    "The program \"" + p + "\" is in a private folder\nto which you do not have access."
  }

  /** Program GET: the program's data when it may be read and exists, a JSON
      error otherwise; the store is never changed. */
  function ProgramGet(st: Store, req: Request, rawUser: string, rawFolder: string, rawProgram: string): (r: Outcome)
    ensures r.store == st
    ensures '/' !in rawUser && '/' !in rawFolder && '/' !in rawProgram ==>
              var u := UrlNames.Normalize(rawUser);
              var f := UrlNames.Normalize(rawFolder);
              var p := UrlNames.Normalize(rawProgram);
              && (!MayRead(st, req, u, f) ==> r.reply == Ok(ProgramNotice(u, f, p, PrivateProgramMessage(p))))
              && (MayRead(st, req, u, f) && GetProgram(st, u, f, p).None? ==>
                    r.reply == Ok(ProgramNotice(u, f, p, u + "/" + f + "/" + p + " does not exist.")))
              && (MayRead(st, req, u, f) && GetProgram(st, u, f, p).Some? ==>
                    r.reply == Ok(ProgramData(u, f, p, Programs(st, u, f)[p])))
    ensures '/' in rawUser || '/' in rawFolder || '/' in rawProgram ==> r.reply == BadPath
  {
    if '/' in rawUser || '/' in rawFolder || '/' in rawProgram then Outcome(st, BadPath)
    else
      var u := UrlNames.Normalize(rawUser);
      var f := UrlNames.Normalize(rawFolder);
      var p := UrlNames.Normalize(rawProgram);
      if !MayRead(st, req, u, f) then Outcome(st, Ok(ProgramNotice(u, f, p, PrivateProgramMessage(p))))
      else
        match GetProgram(st, u, f, p)
        case None => Outcome(st, Ok(ProgramNotice(u, f, p, u + "/" + f + "/" + p + " does not exist.")))
        case Some(prog) => Outcome(st, Ok(ProgramData(u, f, p, prog)))
  }

  /** The fields a program PUT may carry in its `program` JSON value. */
  datatype Changes = Changes(source: Option<string>, screenshot: Option<string>)

  /** The record a program PUT stores: only the fields present in `changes` are
      replaced (the screenshot as its UTF-8 bytes), the description is reset
      and the timestamp refreshed. */
  function ApplyChanges(base: Program, changes: Changes, now: int): (p: Program)
    ensures p.source == changes.source.GetOr(base.source)
    ensures changes.screenshot.Some? ==> p.screenshot == Some(UrlNames.Utf8Encode(changes.screenshot.value))
    ensures changes.screenshot.None? ==> p.screenshot == base.screenshot
    ensures p.description == "" && p.datetime == Some(now)
  {
    var withSource := if changes.source.Some? then base.(source := changes.source.value) else base;
    var withShot := if changes.screenshot.Some?
                    then withSource.(screenshot := Some(UrlNames.Utf8Encode(changes.screenshot.value)))
                    else withSource;
    SetDatetime(withShot, now).(description := "")
  }

  /** Program PUT: an authorised owner updates the program, or creates it when
      its folder exists; every other request leaves the store unchanged. */
  function ProgramPut(st: Store, req: Request, rawUser: string, rawFolder: string, rawProgram: string,
                      changes: Changes, now: int): (r: Outcome)
    ensures !r.reply.Ok? ==> r.store == st
    ensures r.reply.Ok? ==>
              var u := UrlNames.Normalize(rawUser);
              var f := UrlNames.Normalize(rawFolder);
              var p := UrlNames.Normalize(rawProgram);
              var base := GetProgram(st, u, f, p).GetOr(NewProgram());
              && '/' !in rawUser && '/' !in rawFolder && '/' !in rawProgram
              && AuthorizeUser(st, req.session, req.csrfToken, u) == Authorized
              && (GetProgram(st, u, f, p).Some? || GetFolder(st, u, f).Some?)
              && r.reply.body == Empty
              && r.store == PutProgram(st, ProgramId(u, f, p), ApplyChanges(base, changes, now))
    ensures '/' !in rawUser && '/' !in rawFolder && '/' !in rawProgram ==>
              var u := UrlNames.Normalize(rawUser);
              var f := UrlNames.Normalize(rawFolder);
              var p := UrlNames.Normalize(rawProgram);
              && (AuthorizeUser(st, req.session, req.csrfToken, u) == Unauthorized ==> r.reply == Fail(401, "Unauthorized"))
              && (AuthorizeUser(st, req.session, req.csrfToken, u) == Authorized
                  && GetProgram(st, u, f, p).None? && GetFolder(st, u, f).None?
                  ==> r.reply == Fail(403, "No such folder"))
              && (AuthorizeUser(st, req.session, req.csrfToken, u) == AuthCrash ==> r.reply == InternalError)
    ensures r.reply.Ok? <==>
              var u := UrlNames.Normalize(rawUser);
              var f := UrlNames.Normalize(rawFolder);
              var p := UrlNames.Normalize(rawProgram);
              && '/' !in rawUser && '/' !in rawFolder && '/' !in rawProgram
              && AuthorizeUser(st, req.session, req.csrfToken, u) == Authorized
              && (GetProgram(st, u, f, p).Some? || GetFolder(st, u, f).Some?)
    ensures '/' in rawUser || '/' in rawFolder || '/' in rawProgram ==> r.reply == BadPath
  {
    if '/' in rawUser || '/' in rawFolder || '/' in rawProgram then Outcome(st, BadPath)
    else
      var u := UrlNames.Normalize(rawUser);
      var f := UrlNames.Normalize(rawFolder);
      var p := UrlNames.Normalize(rawProgram);
      var a := AuthorizeUser(st, req.session, req.csrfToken, u);
      if a != Authorized then Outcome(st, Refusal(a))
      else
        var existing := GetProgram(st, u, f, p);
        if existing.None? && GetFolder(st, u, f).None? then Outcome(st, Fail(403, "No such folder"))
        else
          var base := existing.GetOr(NewProgram());
          Outcome(PutProgram(st, ProgramId(u, f, p), ApplyChanges(base, changes, now)), Ok(Empty))
  }

  /** Program DELETE: an authorised owner removes the program if it exists, and
      gets `{}` either way. */
  function ProgramDelete(st: Store, req: Request, rawUser: string, rawFolder: string, rawProgram: string): (r: Outcome)
    ensures !r.reply.Ok? ==> r.store == st
    ensures r.reply.Ok? <==>
              '/' !in rawUser && '/' !in rawFolder && '/' !in rawProgram
              && AuthorizeUser(st, req.session, req.csrfToken, UrlNames.Normalize(rawUser)) == Authorized
    ensures r.reply.Ok? ==>
              r.reply.body == Empty
              && r.store == DeleteProgram(st, ProgramId(UrlNames.Normalize(rawUser), UrlNames.Normalize(rawFolder),
                                                        UrlNames.Normalize(rawProgram)))
    ensures '/' !in rawUser && '/' !in rawFolder && '/' !in rawProgram ==>
              var a := AuthorizeUser(st, req.session, req.csrfToken, UrlNames.Normalize(rawUser));
              && (a == Unauthorized ==> r.reply == Fail(401, "Unauthorized"))
              && (a == AuthCrash ==> r.reply == InternalError)
    ensures '/' in rawUser || '/' in rawFolder || '/' in rawProgram ==> r.reply == BadPath
  {
    if '/' in rawUser || '/' in rawFolder || '/' in rawProgram then Outcome(st, BadPath)
    else
      var u := UrlNames.Normalize(rawUser);
      var f := UrlNames.Normalize(rawFolder);
      var p := UrlNames.Normalize(rawProgram);
      var a := AuthorizeUser(st, req.session, req.csrfToken, u);
      if a != Authorized then Outcome(st, Refusal(a))
      else
        var id := ProgramId(u, f, p);
        if id in st.programs then Outcome(DeleteProgram(st, id), Ok(Empty))
        else DeleteAbsentProgram(st, id); Outcome(st, Ok(Empty))
  }

  /** Deleting twice is the same as deleting once, and both replies are `{}`. */
  lemma {:induction false} ProgramDeleteIdempotent(st: Store, req: Request, rawUser: string, rawFolder: string,
                                                  rawProgram: string)
    requires ProgramDelete(st, req, rawUser, rawFolder, rawProgram).reply.Ok?
    ensures var once := ProgramDelete(st, req, rawUser, rawFolder, rawProgram);
            var twice := ProgramDelete(once.store, req, rawUser, rawFolder, rawProgram);
            twice.reply == once.reply && twice.store == once.store
  {
    var once := ProgramDelete(st, req, rawUser, rawFolder, rawProgram);
    var u := UrlNames.Normalize(rawUser);
    assert once.store.users == st.users;
    var id := ProgramId(u, UrlNames.Normalize(rawFolder), UrlNames.Normalize(rawProgram));
    assert DeleteProgram(once.store, id) == once.store;
  }

  // ---------------------------------------------------------------------
  // GET /api/user/<u>/folder/<f>/program/<p>/option/<option>
  // ---------------------------------------------------------------------

  /** Downloads: `downloadProgram` sends one file, `downloadFolder` every
      program of the folder; both answer 405 for a folder that is not readable,
      with no override. Any other option is 404. */
  function ProgramDownload(st: Store, req: Request, rawUser: string, rawFolder: string, rawProgram: string,
                           rawOption: string): (r: Outcome)
    ensures r.store == st
    ensures '/' !in rawUser && '/' !in rawFolder && '/' !in rawProgram && '/' !in rawOption ==>
              var u := UrlNames.Normalize(rawUser);
              var f := UrlNames.Normalize(rawFolder);
              var p := UrlNames.Normalize(rawProgram);
              var option := UrlNames.Normalize(rawOption);
              var pub := Readable(GetFolder(st, u, f), GetUserByUsername(st, u), RequesterEmail(req.session));
              && (option != "downloadProgram" && option != "downloadFolder" ==> r.reply == Fail(404, "No such option"))
              && (option == "downloadProgram" || option == "downloadFolder" ==>
                    (r.reply == Fail(405, "Unauthorized") <==> !pub))
              && (option == "downloadProgram" && pub && GetProgram(st, u, f, p).None? ==>
                    r.reply == Fail(404, "Not found"))
              && (option == "downloadProgram" && pub && GetProgram(st, u, f, p).Some? ==>
                    r.reply == Ok(Attachment(DownloadFile(u, p, GetProgram(st, u, f, p).value.source))))
              && (option == "downloadFolder" && pub ==>
                    r.reply.Ok? && r.reply.body.Archive?
                    && r.reply.body.fileName == u + "_" + f + ".zip"
                    && r.reply.body.entries.Keys == Programs(st, u, f).Keys
                    && forall n :: n in r.reply.body.entries ==>
                         r.reply.body.entries[n] == ArchiveEntry(n, Programs(st, u, f)[n].source))
    ensures '/' in rawUser || '/' in rawFolder || '/' in rawProgram || '/' in rawOption ==> r.reply == BadPath
  {
    if '/' in rawUser || '/' in rawFolder || '/' in rawProgram || '/' in rawOption then Outcome(st, BadPath)
    else
      var u := UrlNames.Normalize(rawUser);
      var f := UrlNames.Normalize(rawFolder);
      var p := UrlNames.Normalize(rawProgram);
      var option := UrlNames.Normalize(rawOption);
      var pub := Readable(GetFolder(st, u, f), GetUserByUsername(st, u), RequesterEmail(req.session));
      if option == "downloadProgram" then
        if !pub then Outcome(st, Fail(405, "Unauthorized"))
        else
          match GetProgram(st, u, f, p)
          case None => Outcome(st, Fail(404, "Not found"))
          case Some(prog) => Outcome(st, Ok(Attachment(DownloadFile(u, p, prog.source))))
      else if option == "downloadFolder" then
        if !pub then Outcome(st, Fail(405, "Unauthorized"))
        else
          var progs := Programs(st, u, f);
          var entries := map n | n in progs :: ArchiveEntry(n, progs[n].source);
          Outcome(st, Ok(Archive(u + "_" + f + ".zip", entries)))
      else Outcome(st, Fail(404, "No such option"))
  }

  // ---------------------------------------------------------------------
  // PUT /api/user/<u>/folder/<f>/program/<p>/option/<option>/oldfolder/<of>/oldprogram/<op>
  // ---------------------------------------------------------------------

  /** Copy or rename, with no authorisation check in the source (so no session
      here): the destination folder must exist (404) and the destination name
      must be free (409); a missing source program is 404 with nothing written.
      On success the destination gets the source's text, screenshot and
      timestamp, and the `rename` option then deletes the source. */
  function ProgramCopy(st: Store, rawUser: string, rawFolder: string, rawProgram: string, rawOption: string,
                       rawOldFolder: string, rawOldProgram: string): (r: Outcome)
    ensures !r.reply.Ok? ==> r.store == st
    ensures r.reply.Ok? ==>
              var u := UrlNames.Normalize(rawUser);
              var dst := ProgramId(u, UrlNames.Normalize(rawFolder), UrlNames.Normalize(rawProgram));
              var src := ProgramId(u, UrlNames.Normalize(rawOldFolder), UrlNames.Normalize(rawOldProgram));
              && GetFolder(st, dst.user, dst.folder).Some?
              && dst !in st.programs && src in st.programs
              && r.reply.body == Empty
              && dst in r.store.programs
              && r.store.programs[dst].source == st.programs[src].source
              && r.store.programs[dst].screenshot == st.programs[src].screenshot
              && r.store.programs[dst].datetime == st.programs[src].datetime
              && r.store.programs[dst].description == ""
              && (UrlNames.Normalize(rawOption) == "rename" <==> src !in r.store.programs)
              && r.store.users == st.users && r.store.folders == st.folders
              && (forall k :: k != dst && k != src ==>
                    (k in r.store.programs <==> k in st.programs)
                    && (k in r.store.programs ==> r.store.programs[k] == st.programs[k]))
    ensures '/' !in rawUser && '/' !in rawFolder && '/' !in rawProgram && '/' !in rawOption
            && '/' !in rawOldFolder && '/' !in rawOldProgram ==>
              var u := UrlNames.Normalize(rawUser);
              var dst := ProgramId(u, UrlNames.Normalize(rawFolder), UrlNames.Normalize(rawProgram));
              var src := ProgramId(u, UrlNames.Normalize(rawOldFolder), UrlNames.Normalize(rawOldProgram));
              && (GetFolder(st, dst.user, dst.folder).None? ==> r.reply == Fail(404, "Folder not found"))
              && (GetFolder(st, dst.user, dst.folder).Some? && dst in st.programs ==>
                    r.reply == Fail(409, "Destination program name already exists"))
              && (GetFolder(st, dst.user, dst.folder).Some? && dst !in st.programs && src !in st.programs ==>
                    r.reply == Fail(404, "Old program not found"))
              && (GetFolder(st, dst.user, dst.folder).Some? && dst !in st.programs && src in st.programs ==>
                    r.reply.Ok?)
    ensures ('/' in rawUser || '/' in rawFolder || '/' in rawProgram || '/' in rawOption
             || '/' in rawOldFolder || '/' in rawOldProgram) ==> r.reply == BadPath
  {
    if '/' in rawUser || '/' in rawFolder || '/' in rawProgram || '/' in rawOption || '/' in rawOldFolder || '/' in rawOldProgram then Outcome(st, BadPath)
    else
      var u := UrlNames.Normalize(rawUser);
      var f := UrlNames.Normalize(rawFolder);
      var p := UrlNames.Normalize(rawProgram);
      var option := UrlNames.Normalize(rawOption);
      var oldFolder := UrlNames.Normalize(rawOldFolder);
      var oldProgram := UrlNames.Normalize(rawOldProgram);
      if GetFolder(st, u, f).None? then Outcome(st, Fail(404, "Folder not found"))
      else if GetProgram(st, u, f, p).Some? then Outcome(st, Fail(409, "Destination program name already exists"))
      else
        match GetProgram(st, u, oldFolder, oldProgram)
        case None => Outcome(st, Fail(404, "Old program not found"))
        case Some(_) =>
          Outcome(Transfer(st, ProgramId(u, oldFolder, oldProgram), ProgramId(u, f, p), option == "rename"), Ok(Empty))
  }

  /** The writes of a successful copy: a new record at `dst` with the text,
      screenshot and timestamp of `src` and an empty description, then, for a
      rename, the removal of `src`. */
  function Transfer(st: Store, src: ProgramId, dst: ProgramId, rename: bool): (r: Store)
    requires src in st.programs && dst !in st.programs
    ensures dst in r.programs
    ensures r.programs[dst].source == st.programs[src].source
    ensures r.programs[dst].screenshot == st.programs[src].screenshot
    ensures r.programs[dst].datetime == st.programs[src].datetime
    ensures r.programs[dst].description == ""
    ensures rename <==> src !in r.programs
    ensures r.users == st.users && r.folders == st.folders
    ensures forall k :: k != dst && k != src ==>
              (k in r.programs <==> k in st.programs)
              && (k in r.programs ==> r.programs[k] == st.programs[k])
  {
    var orig := st.programs[src];
    var written := PutProgram(st, dst, Program(orig.source, "", orig.screenshot, orig.datetime));
    if rename then DeleteProgram(written, src) else written
  }

  /** Copying a program onto its own name is always refused with 409. */
  lemma CopyOntoItselfRefused(st: Store, rawUser: string, rawFolder: string, rawProgram: string, rawOption: string)
    requires '/' !in rawUser && '/' !in rawFolder && '/' !in rawProgram && '/' !in rawOption
    requires GetFolder(st, UrlNames.Normalize(rawUser), UrlNames.Normalize(rawFolder)).Some?
    requires GetProgram(st, UrlNames.Normalize(rawUser), UrlNames.Normalize(rawFolder),
                        UrlNames.Normalize(rawProgram)).Some?
    ensures ProgramCopy(st, rawUser, rawFolder, rawProgram, rawOption, rawFolder, rawProgram)
            == Outcome(st, Fail(409, "Destination program name already exists"))
  {
  }
}

=== FILE: ide.dfy ===
/** The pure parts of src/ideShortcuts.js: locating the source line of a
    runtime error, and the message queue between the IDE page and the
    sandboxed program frame. */
module IdeShortcuts {
  import opened Wrappers

  // ---------------------------------------------------------------------
  // Text helpers with JavaScript's regular-expression meaning
  // ---------------------------------------------------------------------

  /** The characters JavaScript's `\s` matches. */
  predicate JsSpace(c: char) {
    || c == '\t' || c == '\n' || c == '\U{B}' || c == '\U{C}' || c == '\r' || c == ' '
    || c == '\U{A0}' || c == '\U{1680}' || ('\U{2000}' <= c <= '\U{200A}')
    || c == '\U{2028}' || c == '\U{2029}' || c == '\U{202F}' || c == '\U{205F}'
    || c == '\U{3000}' || c == '\U{FEFF}'
  }

  /** The characters JavaScript's `.` does not match. */
  predicate LineTerminator(c: char) {
    c == '\n' || c == '\r' || c == '\U{2028}' || c == '\U{2029}'
  }

  /** The number of leading JavaScript `\s` characters. */
  function LeadingSpaces(s: string): (k: nat)
    ensures k <= |s|
    ensures forall i :: 0 <= i < k ==> JsSpace(s[i])
    ensures k == |s| || !JsSpace(s[k])
  {
    if s != [] && JsSpace(s[0]) then 1 + LeadingSpaces(s[1..]) else 0
  }

  /** `s` without its leading whitespace. */
  function DropSpaces(s: string): string {
    s[LeadingSpaces(s)..]
  }

  /** The text before the first line terminator: what `(.*)` captures. */
  function TakeLine(s: string): (r: string)
    ensures |r| <= |s| && r == s[..|r|]
    ensures forall i :: 0 <= i < |r| ==> !LineTerminator(r[i])
    ensures |r| == |s| || LineTerminator(s[|r|])
  {
    if s == [] || LineTerminator(s[0]) then [] else [s[0]] + TakeLine(s[1..])
  }

  /** `s.replace(new RegExp('^' + p), '')` for a prefix `p` without regular
      expression metacharacters. */
  function StripPrefix(s: string, p: string): (r: string)
    ensures |p| <= |s| && s[..|p|] == p ==> p + r == s
    ensures !(|p| <= |s| && s[..|p|] == p) ==> r == s
  {
    if |p| <= |s| && s[..|p|] == p then s[|p|..] else s
  }

  // ---------------------------------------------------------------------
  // findLine
  // ---------------------------------------------------------------------

  /** A source line as the compiler emits it: `var a = 10` becomes `a = 10`,
      so a leading `var` and the whitespace after it are removed. */
  function StripVar(s: string): string {
    if |s| >= 3 && s[0] == 'v' && s[1] == 'a' && s[2] == 'r' then DropSpaces(s[3..]) else s
  }

  /** The length of the longest common prefix of `a` and `b`. */
  function Lcp(a: string, b: string): (n: nat)
    ensures n <= |a| && n <= |b|
  {
    if a == [] || b == [] || a[0] != b[0] then 0 else 1 + Lcp(a[1..], b[1..])
  }

  /** `Lcp` is a common prefix that cannot be extended. */
  lemma {:induction false} LcpFacts(a: string, b: string)
    ensures forall i :: 0 <= i < Lcp(a, b) ==> a[i] == b[i]
    ensures Lcp(a, b) == |a| || Lcp(a, b) == |b| || a[Lcp(a, b)] != b[Lcp(a, b)]
  {
    if a != [] && b != [] && a[0] == b[0] {
      LcpFacts(a[1..], b[1..]);
      assert forall i :: 1 <= i < Lcp(a, b) ==> a[i] == a[1..][i - 1] && b[i] == b[1..][i - 1];
    }
  }

  /** The three properties of `Lcp` pin it down. */
  lemma LcpUnique(a: string, b: string, k: nat)
    requires k <= |a| && k <= |b|
    requires forall i :: 0 <= i < k ==> a[i] == b[i]
    requires k == |a| || k == |b| || a[k] != b[k]
    ensures k == Lcp(a, b)
  {
    LcpFacts(a, b);
  }

  /** The error line with the wrapper's indentation and the extra space of
      error messages removed. */
  function ErrorText(errorLine: string, indent: string): string {
    StripPrefix(errorLine, indent + " ")
  }

  /** How well source line `s` matches the error text. */
  function Score(text: string, s: string): nat {
    Lcp(text, StripVar(s))
  }

  /** The inner loop of `findLine`: the first index where the two strings
      differ, or the end of the shorter one. */
  method CommonPrefixLength(text: string, test: string) returns (i: nat)
    ensures i == Lcp(text, test)
  {
    i := 0;
    while i < |text|
      invariant 0 <= i <= |text| && i <= |test|
      invariant forall j :: 0 <= j < i ==> text[j] == test[j]
    {
      if i >= |test| {
        break;
      }
      if text[i] != test[i] {
        break;
      }
      i := i + 1;
    }
    LcpUnique(text, test, i);
  }

  /** The score of every source line, in order. */
  function Scores(text: string, sourceLines: seq<string>): (r: seq<nat>)
    ensures |r| == |sourceLines|
  {
    seq(|sourceLines|, m requires 0 <= m < |sourceLines| => Score(text, sourceLines[m]))
  }

  /** Line `k` has the highest score, which is positive, and every earlier
      line scores lower. */
  predicate FirstBest(scores: seq<nat>, k: int) {
    && 0 <= k < |scores|
    && scores[k] > 0
    && (forall m :: 0 <= m < |scores| ==> scores[m] <= scores[k])
    && (forall m :: 0 <= m < k ==> scores[m] < scores[k])
  }

  /** What `findLine` returns for the given scores. */
  predicate FoundLine(scores: seq<nat>, lineNo: int) {
    && ((forall m :: 0 <= m < |scores| ==> scores[m] == 0) ==> lineNo == 1)
    && ((exists m :: 0 <= m < |scores| && scores[m] > 0) ==> FirstBest(scores, lineNo - 1))
  }

  /** The scores determine the answer: no two line numbers both fit. */
  lemma FoundLineUnique(scores: seq<nat>, a: int, b: int)
    requires FoundLine(scores, a) && FoundLine(scores, b)
    ensures a == b
  {
  }

  /** `findLine(line, w)`: the 1-based number of the first source line whose
      compiled form shares the longest common prefix with the error text, or
      1 when no line shares even its first character. */
  method FindLine(errorLine: string, indent: string, sourceLines: seq<string>) returns (lineNo: int)
    ensures FoundLine(Scores(ErrorText(errorLine, indent), sourceLines), lineNo)
  {
    var text := ErrorText(errorLine, indent);
    ghost var seen: seq<nat> := [];
    var matchLen := 0;
    var best: Option<nat> := None;
    var n := 0;
    while n < |sourceLines|
      invariant 0 <= n <= |sourceLines|
      invariant seen == Scores(text, sourceLines[..n])
      invariant Scanned(seen, best, matchLen)
    {
      var i := CommonPrefixLength(text, StripVar(sourceLines[n]));
      ScoresPrefix(text, sourceLines, n);
      ScanStep(seen, best, matchLen, i);
      seen := seen + [i];
      if i > matchLen {
        matchLen := i;
        best := Some(n);
      }
      n := n + 1;
    }
    lineNo := if best.None? then 1 else best.value + 1;
    ScanResult(seen, best, matchLen);
    assert sourceLines[..n] == sourceLines;
  }

  /** The scores of one more line extend the scores so far. */
  lemma ScoresPrefix(text: string, sourceLines: seq<string>, n: nat)
    requires n < |sourceLines|
    ensures Scores(text, sourceLines[..n + 1])
            == Scores(text, sourceLines[..n]) + [Score(text, sourceLines[n])]
  {
    var a := Scores(text, sourceLines[..n + 1]);
    var b := Scores(text, sourceLines[..n]) + [Score(text, sourceLines[n])];
    forall m | 0 <= m < |a| ensures a[m] == b[m] {
      assert sourceLines[..n + 1][m] == sourceLines[m];
    }
  }

  /** What the scan of `findLine` knows after reading `scores`: `best` is the
      first line with the highest positive score `matchLen`, or None while
      every score is zero. */
  predicate Scanned(scores: seq<nat>, best: Option<nat>, matchLen: nat) {
    && (best.None? ==> matchLen == 0 && forall m :: 0 <= m < |scores| ==> scores[m] == 0)
    && (best.Some? ==>
          && best.value < |scores|
          && matchLen == scores[best.value] > 0
          && (forall m :: 0 <= m < |scores| ==> scores[m] <= matchLen)
          && (forall m :: 0 <= m < best.value ==> scores[m] < matchLen))
  }

  /** One step of the scan: a strictly longer match replaces the best line. */
  lemma ScanStep(scores: seq<nat>, best: Option<nat>, matchLen: nat, i: nat)
    requires Scanned(scores, best, matchLen)
    ensures Scanned(scores + [i], if i > matchLen then Some(|scores|) else best,
                    if i > matchLen then i else matchLen)
  {
    var s := scores + [i];
    assert forall m :: 0 <= m < |scores| ==> s[m] == scores[m];
  }

  /** The state the scan ends in determines its answer. */
  lemma ScanResult(scores: seq<nat>, best: Option<nat>, matchLen: nat)
    requires Scanned(scores, best, matchLen)
    ensures FoundLine(scores, if best.None? then 1 else best.value + 1)
  {
    if best.Some? {
      assert FirstBest(scores, best.value);
    }
  }

  // ---------------------------------------------------------------------
  // insertLineNumbers
  // ---------------------------------------------------------------------

  /** `lines[n].match(/^\s*(.*)/)[1]`: the leading whitespace is skipped,
      then the text up to the first line terminator is kept. */
  function Content(s: string): (c: string)
    ensures forall i :: 0 <= i < |c| ==> !LineTerminator(c[i])
  {
    if s != [] && JsSpace(s[0]) then Content(s[1..]) else TakeLine(s)
  }

  /** `Content` is the two regular-expression steps one after the other. */
  lemma {:induction false} ContentSteps(s: string)
    ensures Content(s) == TakeLine(DropSpaces(s))
  {
    if s != [] && JsSpace(s[0]) {
      ContentSteps(s[1..]);
    }
  }

  /** Line content opening or closing a `###` block comment. */
  predicate Toggles(c: string) {
    |c| >= 3 && c[..3] == "###"
  }

  /** Line content that is blank or a `#` comment. */
  predicate Blank(c: string) {
    |c| == 0 || c[0] == '#'
  }

  /** A line opening or closing a `###` block comment. */
  predicate IsToggle(s: string) {
    Toggles(Content(s))
  }

  /** Whether the scan is inside a block comment when it reaches line `n`:
      the `###` lines among lines 2 .. n-1 are odd in number. */
  function CommentBefore(lines: seq<string>, n: nat): bool
    requires 2 <= n <= |lines|
  {
    if n == 2 then false else CommentBefore(lines, n - 1) != IsToggle(lines[n - 1])
  }

  /** Line `n` adds to the count: not a `###` line, not inside a block
      comment, not blank and not a `#` comment. */
  predicate Counted(lines: seq<string>, n: nat)
    requires 2 <= n < |lines|
  {
    !IsToggle(lines[n]) && !CommentBefore(lines, n) && !Blank(Content(lines[n]))
  }

  /** The running total before line `n`: three per counted line from line 2. */
  function CountBefore(lines: seq<string>, n: nat): nat
    requires 2 <= n <= |lines|
  {
    if n == 2 then 0 else CountBefore(lines, n - 1) + (if Counted(lines, n - 1) then 3 else 0)
  }

  /** Line `n` is counted and brings the total to at least `errline - 2`. */
  predicate Hit(lines: seq<string>, n: nat, errline: int)
    requires 2 <= n < |lines|
  {
    Counted(lines, n) && CountBefore(lines, n) + 3 >= errline - 2
  }

  /** `insertLineNumbers(errline)`: the first line from index 2 up to the
      second-to-last where the running total reaches `errline - 2`, or -1. */
  method InsertLineNumbers(lines: seq<string>, errline: int) returns (r: int)
    ensures r == -1 || 2 <= r <= |lines| - 2
    ensures r != -1 ==> Hit(lines, r, errline)
    ensures r != -1 ==> forall m :: 2 <= m < r ==> !Hit(lines, m, errline)
    ensures r == -1 ==> forall m :: 2 <= m < |lines| - 1 ==> !Hit(lines, m, errline)
  {
    if |lines| < 3 {
      return -1;
    }
    var comment := false;
    var lineno := 0;
    var n := 2;
    while n < |lines| - 1
      invariant 2 <= n <= |lines| - 1
      invariant comment == CommentBefore(lines, n)
      invariant lineno == CountBefore(lines, n)
      invariant NoHitBefore(lines, n, errline)
    {
      var line := Content(lines[n]);
      assert CommentBefore(lines, n + 1) == (comment != Toggles(line));
      assert CountBefore(lines, n + 1) == lineno + (if Counted(lines, n) then 3 else 0);
      if Toggles(line) {
        comment := !comment;
      } else if !comment && !Blank(line) {
        lineno := lineno + 3;
        if lineno >= errline - 2 {
          NoHitBeforeAll(lines, n, errline);
          return n;
        }
      }
      n := n + 1;
    }
    NoHitBeforeAll(lines, n, errline);
    return -1;
  }

  /** No line from index 2 up to `n` - 1 is a hit. */
  predicate NoHitBefore(lines: seq<string>, n: nat, errline: int)
    requires 2 <= n <= |lines|
  {
    n == 2 || (NoHitBefore(lines, n - 1, errline) && !Hit(lines, n - 1, errline))
  }

  lemma {:induction false} NoHitBeforeAll(lines: seq<string>, n: nat, errline: int)
    requires 2 <= n <= |lines|
    requires NoHitBefore(lines, n, errline)
    ensures forall m :: 2 <= m < n ==> !Hit(lines, m, errline)
  {
    if n > 2 {
      NoHitBeforeAll(lines, n - 1, errline);
    }
  }

  // ---------------------------------------------------------------------
  // The frame message queue and the ready handshake
  // ---------------------------------------------------------------------

  /** A value `JSON.parse` can produce. */
  datatype JsVal =
    | JNull
    | JBool(b: bool)
    | JNum(x: real)
    | JStr(s: string)
    | JArr(items: seq<JsVal>)
    | JObj(fields: map<string, JsVal>)

  /** JavaScript truthiness of a parsed value; `undefined` is None. */
  predicate Truthy(v: Option<JsVal>) {
    match v
    case None => false
    case Some(JNull) => false
    case Some(JBool(b)) => b
    case Some(JNum(x)) => x != 0.0
    case Some(JStr(s)) => s != ""
    case Some(_) => true
  }

  /** `v[k]` on a non-null value, for a key no prototype defines (such as
      `screenshot`): an object's own entry, `undefined` otherwise. */
  function Property(v: JsVal, k: string): (r: Option<JsVal>)
    ensures r.Some? <==> v.JObj? && k in v.fields
  {
    if v.JObj? && k in v.fields then Some(v.fields[k]) else None
  }

  /** The page's view of the frame: whether the handshake happened, the queue
      (None once flushed, as `unsentMessages = null`), the messages posted so
      far, whether the program has a screenshot, and the screenshots uploaded. */
  datatype Frame = Frame(ready: bool, unsent: Option<seq<string>>, posted: seq<string>,
                         haveScreenshot: bool, uploads: seq<JsVal>)

  /** The page before the frame has answered. */
  function Initial(haveScreenshot: bool): Frame {
    Frame(false, Some([]), [], haveScreenshot, [])
  }

  /** `sendMessage(message)`: queue while the queue exists, post otherwise. */
  function SendMessage(fr: Frame, message: string): (r: Frame)
    ensures fr.unsent.None? ==> r == fr.(posted := fr.posted + [message])
    ensures fr.unsent.Some? ==> r == fr.(unsent := Some(fr.unsent.value + [message]))
  {
    match fr.unsent
    case None => fr.(posted := fr.posted + [message])
    case Some(q) => fr.(unsent := Some(q + [message]))
  }

  /** `sendMessage` on each message in turn. */
  function SendAll(fr: Frame, messages: seq<string>): (r: Frame)
    ensures fr.unsent.None? ==> r == fr.(posted := fr.posted + messages)
    ensures fr.unsent.Some? ==> r == fr.(unsent := Some(fr.unsent.value + messages))
    decreases |messages|
  {
    if messages == [] then
      assert fr.posted + messages == fr.posted;
      assert fr.unsent.Some? ==> fr.unsent.value + messages == fr.unsent.value;
      fr
    else
      var next := SendMessage(fr, messages[0]);
      assert fr.unsent.None? ==> fr.posted + messages == next.posted + messages[1..];
      assert fr.unsent.Some? ==> fr.unsent.value + messages == next.unsent.value + messages[1..];
      SendAll(next, messages[1..])
  }

  /** The first message the page accepts: an object whose only key is
      `ready`, holding `true`. */
  predicate IsHandshake(v: JsVal) {
    v.JObj? && "ready" in v.fields && v.fields["ready"] == JBool(true) && v.fields.Keys == {"ready"}
  }

  /** The message that opens the conversation. */
  const Ready := JObj(map["ready" := JBool(true)])

  lemma HandshakeIsReady(v: JsVal)
    ensures IsHandshake(v) <==> v == Ready
  {
    if IsHandshake(v) {
      assert v.fields.Keys == Ready.fields.Keys;
      assert forall k :: k in v.fields ==> v.fields[k] == Ready.fields[k];
      assert v.fields == Ready.fields;
    }
  }

  /** The handshake: mark the frame ready, drop the queue and post what it
      held, in order. */
  function Flush(fr: Frame): (r: Frame)
    ensures r.ready && r.unsent.None?
    ensures r.posted == fr.posted + fr.unsent.GetOr([])
    ensures r.haveScreenshot == fr.haveScreenshot && r.uploads == fr.uploads
  {
    var started := fr.(ready := true, unsent := None);
    match fr.unsent
    case None => started
    case Some(um) => SendAll(started, um)
  }

  /** An incoming screenshot is uploaded: a truthy `screenshot`, a writable
      program, and either a manual screenshot or none stored yet. */
  predicate Uploads(message: JsVal, writable: bool, haveScreenshot: bool) {
    Truthy(Property(message, "screenshot")) && writable
    && (!Truthy(Property(message, "autoscreenshot")) || !haveScreenshot)
  }

  /** The ready-handshake and screenshot part of `receiveMessage`. `data` is
      the parsed message, None when `JSON.parse` throws (which, like reading a
      property of `null`, abandons the handler with nothing changed). Before
      the handshake only a handshake is accepted; it has no other key, so it
      never carries a screenshot. */
  function Receive(fr: Frame, origin: string, trustedOrigin: string, data: Option<JsVal>,
                   writable: bool): (r: Frame)
    ensures origin != trustedOrigin || data.None? ==> r == fr
    ensures !fr.ready ==> (r.ready <==> origin == trustedOrigin && data == Some(Ready))
    ensures !fr.ready && r.ready ==> r == Flush(fr)
    ensures !fr.ready && !r.ready ==> r == fr
    ensures fr.ready && origin == trustedOrigin && data.Some? ==>
              if Uploads(data.value, writable, fr.haveScreenshot)
              then r == fr.(haveScreenshot := true, uploads := fr.uploads + [data.value.fields["screenshot"]])
              else r == fr
  {
    if origin != trustedOrigin then fr
    else
      match data
      case None => fr
      case Some(message) =>
        if !fr.ready then
          HandshakeIsReady(message);
          if IsHandshake(message) then Flush(fr) else fr
        else if message.JNull? then fr
        else if Uploads(message, writable, fr.haveScreenshot) then
          fr.(haveScreenshot := true, uploads := fr.uploads + [message.fields["screenshot"]])
        else fr
  }

  /** Messages sent before the handshake and after it reach the frame in the
      order they were sent. */
  lemma {:induction false} QueueKeepsOrder(haveScreenshot: bool, early: seq<string>, late: seq<string>,
                                          origin: string, writable: bool)
    ensures var queued := SendAll(Initial(haveScreenshot), early);
            var started := Receive(queued, origin, origin, Some(Ready), writable);
            var sent := SendAll(started, late);
            sent.ready && sent.unsent.None? && sent.posted == early + late
  {
    var queued := SendAll(Initial(haveScreenshot), early);
    assert queued.unsent == Some([] + early) && queued.posted == [];
    assert [] + early == early;
  }

  /** Before the handshake nothing is posted, whatever arrives. */
  lemma NothingPostedBeforeHandshake(fr: Frame, origin: string, trustedOrigin: string, data: Option<JsVal>,
                                     writable: bool)
    requires !fr.ready
    requires data != Some(Ready)
    ensures Receive(fr, origin, trustedOrigin, data, writable) == fr
  {
  }

  /** Of two screenshots from the running program, only the first automatic
      one is uploaded; a manual one is uploaded every time. */
  lemma AutoScreenshotOnce(fr: Frame, origin: string, shot: JsVal)
    requires fr.ready && !fr.haveScreenshot && shot != JNull && shot != JBool(false)
    requires shot != JNum(0.0) && shot != JStr("")
    ensures var auto := JObj(map["screenshot" := shot, "autoscreenshot" := JBool(true)]);
            var once := Receive(fr, origin, origin, Some(auto), true);
            var twice := Receive(once, origin, origin, Some(auto), true);
            once.uploads == fr.uploads + [shot] && twice == once
    ensures var manual := JObj(map["screenshot" := shot]);
            var once := Receive(fr.(haveScreenshot := true), origin, origin, Some(manual), true);
            once.uploads == fr.uploads + [shot]
  {
    var auto := JObj(map["screenshot" := shot, "autoscreenshot" := JBool(true)]);
    assert Property(auto, "screenshot") == Some(shot);
    assert Property(auto, "autoscreenshot") == Some(JBool(true));
    var manual := JObj(map["screenshot" := shot]);
    assert Property(manual, "autoscreenshot") == None;
  }
}

=== FILE: keys.dfy ===
/** The hierarchical key of src/mongo_models.py (`BunnetKey`): a chain of
    (kind, name) pairs, ancestors first, with its URL-safe rendering
    `Kind::name/Kind::name/...`. */
module Keys {
  import opened Wrappers
  import opened Strs
  import UrlNames

  /** The entries of `doc_lookup`. */
  datatype Kind = User | Folder | Program

  function KindName(k: Kind): string {
    match k
    case User => "User"
    case Folder => "Folder"
    case Program => "Program"
  }

  /** `doc_lookup[name]`: None when the name is not one of the three kinds. */
  function LookupKind(name: string): (r: Option<Kind>)
    ensures r.Some? ==> KindName(r.value) == name
    ensures r.None? ==> forall k: Kind :: KindName(k) != name
  {
    if name == "User" then Some(User)
    else if name == "Folder" then Some(Folder)
    else if name == "Program" then Some(Program)
    else None
  }

  lemma LookupKindName(k: Kind)
    ensures LookupKind(KindName(k)) == Some(k)
  {
  }

  datatype Pair = Pair(kind: Kind, name: string)

  /** A key: the pairs of its ancestors followed by its own pair. */
  type Key = s: seq<Pair> | |s| > 0 witness [Pair(User, "")]

  datatype KeyError =
    | OddArguments        // "Invalid number of arguments, needs to be a multiple of 2"
    | NoArguments         // an empty argument list names no entity
    | UnknownKind(name: string)  // "Invalid argument, needs to be in [...]"
    | BadSegment(segment: string) // a URL-safe segment that is not `kind::name`

  /** The flat argument list `kind, name, kind, name, ...` of a key. */
  function Args(k: seq<Pair>): (args: seq<string>)
    ensures |args| == 2 * |k|
  {
    if k == [] then [] else [KindName(k[0].kind), k[0].name] + Args(k[1..])
  }

  /** `BunnetKey(*args)`: an odd number of arguments and an unknown kind at an
      even position are rejected, checked in that order and left to right. */
  function MakeKey(args: seq<string>): (r: Result<Key, KeyError>)
    ensures |args| % 2 != 0 ==> r == Failure(OddArguments)
    ensures r.Success? ==> Args(r.value) == args
    ensures |args| % 2 == 0 && !KindsKnown(args) ==> r.Failure? && r.error.UnknownKind?
    ensures r.Failure? && r.error.UnknownKind? ==>
              (exists i :: 0 <= i < |args| && i % 2 == 0 && args[i] == r.error.name
                && LookupKind(args[i]).None?)
    ensures args == [] ==> r == Failure(NoArguments)
  {
    if |args| % 2 != 0 then Failure(OddArguments)
    else if args == [] then Failure(NoArguments)
    else
      var pairs :- MakePairs(args);
      Success(pairs)
  }

  /** Every argument at an even position names a known kind. */
  predicate KindsKnown(args: seq<string>) {
    forall i :: 0 <= i < |args| && i % 2 == 0 ==> LookupKind(args[i]).Some?
  }

  /** A list of at least two arguments names known kinds exactly when its
      first argument and the list after the first pair do. */
  lemma KindsKnownCons(args: seq<string>)
    requires |args| >= 2
    ensures KindsKnown(args) <==> LookupKind(args[0]).Some? && KindsKnown(args[2..])
  {
    assert forall i :: 2 <= i < |args| ==> args[i] == args[2..][i - 2];
  }

  function MakePairs(args: seq<string>): (r: Result<seq<Pair>, KeyError>)
    requires |args| % 2 == 0
    ensures r.Success? ==> Args(r.value) == args
    ensures r.Success? <==> KindsKnown(args)
    ensures r.Failure? ==>
              r.error.UnknownKind?
              && (exists i :: 0 <= i < |args| && i % 2 == 0 && args[i] == r.error.name && LookupKind(args[i]).None?)
    decreases |args|
  {
    if args == [] then Success([])
    else
      KindsKnownCons(args);
      match LookupKind(args[0])
      case None => Failure(UnknownKind(args[0]))
      case Some(k) =>
        var rest :- MakePairs(args[2..]);
        assert args == [args[0], args[1]] + args[2..];
        Success([Pair(k, args[1])] + rest)
  }

  /** Constructing a key from its own argument list gives the key back. */
  lemma {:induction false} MakeKeyArgs(k: Key)
    ensures MakeKey(Args(k)) == Success(k)
  {
    MakePairsArgs(k);
  }

  lemma {:induction false} MakePairsArgs(k: seq<Pair>)
    ensures MakePairs(Args(k)) == Success(k)
    decreases |k|
  {
    if k != [] {
      LookupKindName(k[0].kind);
      MakePairsArgs(k[1..]);
      var args := Args(k);
      assert args[0] == KindName(k[0].kind) && args[1] == k[0].name;
      assert args[2..] == Args(k[1..]);
      assert k == [k[0]] + k[1..];
    }
  }

  /** One pair as `kind::name`. */
  function Segment(p: Pair): string {
    KindName(p.kind) + "::" + p.name
  }

  function Segments(k: seq<Pair>): (segs: seq<string>)
    ensures |segs| == |k|
    ensures forall i :: 0 <= i < |k| ==> segs[i] == Segment(k[i])
  {
    if k == [] then [] else [Segment(k[0])] + Segments(k[1..])
  }

  /** `urlsafe()`: the parent's rendering, `/`, then this key's own pair; a
      parentless key is just `kind::name`. */
  function Urlsafe(k: Key): string
    decreases |k|
  {
    if |k| == 1 then Segment(k[0])
    else Urlsafe(k[..|k| - 1]) + "/" + Segment(k[|k| - 1])
  }

  /** The rendering is the `/`-join of the segments, ancestors first. */
  lemma {:induction false} UrlsafeIsJoin(k: Key)
    ensures Urlsafe(k) == JoinChar(Segments(k), '/')
    decreases |k|
  {
    if |k| == 1 {
      assert Segments(k) == [Segment(k[0])];
    } else {
      var init: Key := k[..|k| - 1];
      UrlsafeIsJoin(init);
      UrlsafeStep(k, init);
    }
  }

  lemma UrlsafeStep(k: Key, init: Key)
    requires |k| > 1 && init == k[..|k| - 1]
    requires Urlsafe(init) == JoinChar(Segments(init), '/')
    ensures Urlsafe(k) == JoinChar(Segments(k), '/')
  {
    var p := k[|k| - 1];
    var segs := Segments(init);
    LastSplit(k);
    SegmentsSnoc(init, p);
    JoinSnoc(segs, Segment(p));
    calc {
      Urlsafe(k);
      Urlsafe(init) + "/" + Segment(p);
      JoinChar(segs, '/') + "/" + Segment(p);
      JoinChar(segs + [Segment(p)], '/');
      JoinChar(Segments(k), '/');
    }
  }

  /** A non-empty sequence is its front followed by its last element. */
  lemma LastSplit(k: seq<Pair>)
    requires |k| > 0
    ensures k == k[..|k| - 1] + [k[|k| - 1]]
  {
  }

  lemma SegmentsSnoc(k: seq<Pair>, p: Pair)
    ensures Segments(k + [p]) == Segments(k) + [Segment(p)]
  {
  }

  lemma {:induction false} JoinSnoc(parts: seq<string>, last: string)
    requires |parts| >= 1
    ensures JoinChar(parts + [last], '/') == JoinChar(parts, '/') + "/" + last
    decreases |parts|
  {
    if |parts| > 1 {
      assert (parts + [last])[1..] == parts[1..] + [last];
      JoinSnoc(parts[1..], last);
    }
  }

  /** The pair named by one segment: `kind, key = segment.split('::')` must give
      exactly two parts, and the kind must be known. */
  function ParseSegment(seg: string): (r: Result<Pair, KeyError>)
    ensures r.Success? ==> Segment(r.value) == seg
    ensures |Split(seg, "::")| != 2 ==> r == Failure(BadSegment(seg))
    ensures |Split(seg, "::")| == 2 ==>
              (r.Success? <==> LookupKind(Split(seg, "::")[0]).Some?)
              && (r.Failure? ==> r.error == UnknownKind(Split(seg, "::")[0]))
  {
    var parts := Split(seg, "::");
    if |parts| != 2 then Failure(BadSegment(seg))
    else match LookupKind(parts[0])
      case None => Failure(UnknownKind(parts[0]))
      case Some(kind) =>
        SplitTwo(seg, "::");
        Success(Pair(kind, parts[1]))
  }

  /** When `split` gives two parts, the separator joins them back. */
  lemma SplitTwo(s: string, sep: string)
    requires |sep| > 0
    requires |Split(s, sep)| == 2
    ensures s == Split(s, sep)[0] + sep + Split(s, sep)[1]
  {
    var i := Find(s, sep).value;
    var rest := s[i + |sep|..];
    SplitAtFirst(s, sep, i);
    SplitSingle(rest, sep);
    assert s[i..i + |sep|] == sep;
    assert s == s[..i] + s[i..i + |sep|] + rest;
  }

  /** The segments parsed in order; any segment that does not parse makes the
      whole list fail. */
  function ParseSegments(segs: seq<string>): (r: Result<seq<Pair>, KeyError>)
    ensures r.Success? ==> |r.value| == |segs| && Segments(r.value) == segs
    ensures r.Success? <==> AllSegmentsParse(segs)
    decreases |segs|
  {
    if segs == [] then Success([])
    else
      AllSegmentsParseCons(segs);
      var p :- ParseSegment(segs[0]);
      var rest :- ParseSegments(segs[1..]);
      Success([p] + rest)
  }

  /** Every segment is `kind::name` with a known kind. */
  predicate AllSegmentsParse(segs: seq<string>) {
    forall k :: 0 <= k < |segs| ==> ParseSegment(segs[k]).Success?
  }

  /** A non-empty list parses exactly when its head and its tail do. */
  lemma AllSegmentsParseCons(segs: seq<string>)
    requires |segs| > 0
    ensures AllSegmentsParse(segs) <==>
              ParseSegment(segs[0]).Success? && AllSegmentsParse(segs[1..])
  {
    assert forall k :: 1 <= k < |segs| ==> segs[k] == segs[1..][k - 1];
  }

  /** `from_urlsafe(s)`: split on `/`; all but the last segment form the parent
      chain, parsed first, and the last segment is this key's own pair. */
  function FromUrlsafe(s: string): (r: Result<Key, KeyError>)
    ensures r.Success? ==> Segments(r.value) == SplitChar(s, '/')
    ensures r.Success? <==> AllSegmentsParse(SplitChar(s, '/'))
  {
    match ParseSegments(SplitChar(s, '/'))
    case Failure(e) => Failure(e)
    case Success(pairs) => Success(pairs)
  }

  /** A name survives rendering: it holds neither `/` nor the `::` separator. */
  predicate PlainName(name: string) {
    '/' !in name && !Contains(name, "::")
  }

  /** Splitting `kind::name` on `::` recovers the kind and the name. */
  lemma SegmentSplit(p: Pair)
    requires !Contains(p.name, "::")
    ensures Split(Segment(p), "::") == [KindName(p.kind), p.name]
  {
    var kn := KindName(p.kind);
    var s := Segment(p);
    assert s[|kn|..|kn| + 2] == "::";
    assert ':' !in kn;
    forall j: nat | j < |kn| ensures !OccursAt(s, "::", j) {
      assert s[j] == kn[j];
      if j + 2 <= |s| {
        assert s[j..j + 2][0] == s[j];
      }
    }
    FindFirst(s, "::", |kn|);
    SplitAtFirst(s, "::", |kn|);
    assert s[..|kn|] == kn;
    assert s[|kn| + 2..] == p.name;
    SplitAbsent(p.name, "::");
  }

  lemma ParseSegmentOfSegment(p: Pair)
    requires !Contains(p.name, "::")
    ensures ParseSegment(Segment(p)) == Success(p)
  {
    SegmentSplit(p);
    LookupKindName(p.kind);
  }

  lemma ParseSegmentsCons(segs: seq<string>, p: Pair, rest: seq<Pair>)
    requires |segs| > 0
    requires ParseSegment(segs[0]) == Success(p)
    requires ParseSegments(segs[1..]) == Success(rest)
    ensures ParseSegments(segs) == Success([p] + rest)
  {
  }

  lemma {:induction false} ParseSegmentsOfSegments(k: seq<Pair>)
    requires forall i :: 0 <= i < |k| ==> !Contains(k[i].name, "::")
    ensures ParseSegments(Segments(k)) == Success(k)
    decreases |k|
  {
    if k != [] {
      var segs := Segments(k);
      ParseSegmentOfSegment(k[0]);
      assert segs[1..] == Segments(k[1..]);
      ParseSegmentsOfSegments(k[1..]);
      ParseSegmentsCons(segs, k[0], k[1..]);
      assert k == [k[0]] + k[1..];
    }
  }

  /** Parsing a rendered key gives the key back whenever no name contains `/`
      or `::`. */
  lemma RoundTrip(k: Key)
    requires forall i :: 0 <= i < |k| ==> PlainName(k[i].name)
    ensures FromUrlsafe(Urlsafe(k)) == Success(k)
  {
    var segs := Segments(k);
    UrlsafeIsJoin(k);
    SegmentsSlashFree(k);
    SplitJoin(segs, '/');
    ParseSegmentsOfSegments(k);
    assert SplitChar(Urlsafe(k), '/') == segs;
  }

  lemma SegmentSlashFree(p: Pair)
    requires '/' !in p.name
    ensures '/' !in Segment(p)
  {
    var kn := KindName(p.kind);
    assert '/' !in kn;
    assert '/' !in kn + "::";
  }

  lemma SegmentsSlashFree(k: seq<Pair>)
    requires forall i :: 0 <= i < |k| ==> '/' !in k[i].name
    ensures forall i :: 0 <= i < |k| ==> '/' !in Segments(k)[i]
  {
    forall i | 0 <= i < |k| ensures '/' !in Segments(k)[i] {
      SegmentSlashFree(k[i]);
    }
  }

  /** Names produced by the URL normaliser from `/`-free path segments are plain,
      so keys built from them survive the round trip. */
  lemma NormalizedNamesArePlain(raw: string)
    requires '/' !in raw
    ensures PlainName(UrlNames.Normalize(raw))
  {
    var n := UrlNames.Normalize(raw);
    UrlNames.NormalizeValid(raw);
    assert forall i :: 0 <= i < |n| ==> n[i] != ':' && n[i] != '/' by {
      forall i | 0 <= i < |n| ensures n[i] != ':' && n[i] != '/' {
        assert UrlNames.Unreserved(n[i]) || n[i] == '%';
      }
    }
    NoColonNoSeparator(n);
  }

  /** A text without `:` holds no `::`. */
  lemma NoColonNoSeparator(s: string)
    requires forall i :: 0 <= i < |s| ==> s[i] != ':'
    ensures !Contains(s, "::")
  {
    forall i: nat | i <= |s| ensures !OccursAt(s, "::", i) {
      if i + 2 <= |s| {
        assert s[i..i + 2][0] == s[i];
      }
    }
  }
}

=== FILE: routes.dfy ===
/** The pure decisions of src/routes.py that the request handlers are built
    from: the override list, `authorize_user`, folder visibility, the login
    nickname, the `/%23` rewrite and the download file type. */
module Routes {
  import opened Wrappers
  import opened Strs
  import opened Schema
  import opened Adapter
  import opened Auth

  /** The accounts `override` lets read private folders. */
  const OverrideEmails: seq<string> := ["basherwo@ncsu.edu", "spicklemire@uindy.edu"]

  /** `override(user)`: `str(user)` is on the list; `str(None)` is `"None"`,
      which is not. */
  predicate Override(email: Option<string>) {
    email.Some? && email.value in OverrideEmails
  }

  /** The `logged_in_email` of `parseUrlPath`: the session email when logged in
      (None when the session has no email), the empty string for an anonymous
      requester. */
  function RequesterEmail(s: Session): (e: Option<string>)
    ensures IsLoggedIn(s) ==> e == Email(s)
    ensures !IsLoggedIn(s) ==> e == Some("")
  {
    if IsLoggedIn(s) then Email(s) else Some("")
  }

  /** Neither the anonymous requester nor a session without email is ever an
      override account. */
  lemma NoOverrideWithoutEmail(s: Session)
    requires !IsLoggedIn(s) || Email(s).None?
    ensures !Override(RequesterEmail(s))
  {
    assert "" != OverrideEmails[0] && "" != OverrideEmails[1];
  }

  /** The three results of `authorize_user`: when the requester is logged in but
      the user does not exist, the diagnostic `print` dereferences `None` and
      the request fails with status 500. */
  datatype Authorization = Authorized | Unauthorized | AuthCrash

  /** `authorize_user(username)` with the request's `X-CSRF-Token` header. */
  function AuthorizeUser(st: Store, s: Session, csrfToken: Option<string>, username: string): (a: Authorization)
    ensures a == Authorized <==>
              IsLoggedIn(s) && username in st.users
              && Email(s) == Some(st.users[username].email)
              && csrfToken == Some(st.users[username].secret)
    ensures a == AuthCrash <==> IsLoggedIn(s) && username !in st.users
  {
    if !IsLoggedIn(s) then Unauthorized
    else
      match GetUserByUsername(st, username)
      case None => AuthCrash
      case Some(owner) =>
        if Email(s) != Some(owner.email) || csrfToken != Some(owner.secret) then Unauthorized
        else Authorized
  }

  /** The `pub` test of the read handlers, including its `except: pub = True`:
      a missing folder or missing owner reads as visible. */
  function Readable(folder: Option<Folder>, owner: Option<User>, requester: Option<string>): (pub: bool)
    ensures !pub <==> folder.Some? && folder.value.isPublic == Some(false)
                      && owner.Some? && requester != Some(owner.value.email)
  {
    match folder
    case None => true
    case Some(fd) =>
      match fd.isPublic
      case None => true
      case Some(isPublic) =>
        if isPublic then true
        else
          match owner
          case None => true
          case Some(o) => requester == Some(o.email)
  }

  /** The nickname `api_login` suggests: the text before the first `@`, or the
      whole address when it has none. */
  function Nickname(email: string): (nick: string)
    ensures '@' !in nick
    ensures nick <= email
    ensures '@' in email ==> |nick| < |email| && email[|nick|] == '@'
    ensures '@' !in email ==> nick == email
  {
    match Find(email, "@")
    case None =>
      assert '@' !in email by {
        forall i | 0 <= i < |email| ensures email[i] != '@' {
          assert !OccursAt(email, "@", i);
          assert email[i..i + 1] == [email[i]];
        }
      }
      email
    case Some(i) =>
      assert email[i..i + 1] == "@";
      assert email[i] == '@';
      forall j | 0 <= j < i ensures email[j] != '@' {
        assert !OccursAt(email, "@", j);
        assert email[j..j + 1] == [email[j]];
      }
      email[..i]
  }

  /** `check_for_escaped_hash`: a path starting with `/%23` is redirected to the
      same URL with that prefix turned into `/#`; any other request proceeds. */
  function EscapedHashRedirect(url: Url): (r: Option<Url>)
    ensures r.Some? <==> "/%23" <= url.path
    ensures r.Some? ==> r.value == url.(path := "/#" + url.path[4..])
  {
    if "/%23" <= url.path then Some(url.(path := "/#" + url.path[4..])) else None
  }

  /** The redirect target is never redirected again, differs from the request,
      and keeps everything after the `/%23` prefix and every part but the path. */
  lemma RedirectTargetIsFinal(url: Url)
    ensures var r := EscapedHashRedirect(url);
            r.Some? ==>
              && EscapedHashRedirect(r.value).None?
              && r.value != url
              && r.value.path[..2] == "/#" && r.value.path[2..] == url.path[4..]
              && r.value.(path := url.path) == url
  {
    var r := EscapedHashRedirect(url);
    if r.Some? {
      assert r.value.path[1] == '#';
      assert url.path[1] == '%';
    }
  }

  /** The text the download classifier looks at: `source[0:end]` with
      `end = source.find('\n')`. With no newline `end` is -1, and the slice is
      every character but the last. */
  function FirstLine(source: string): (h: string)
    ensures h <= source
    ensures '\n' in source ==> '\n' !in h && |h| < |source| && source[|h|] == '\n'
    ensures '\n' !in source ==> |h| == if |source| == 0 then 0 else |source| - 1
  {
    match Find(source, "\n")
    case Some(i) =>
      assert source[i..i + 1] == "\n";
      assert source[i] == '\n';
      forall j | 0 <= j < i ensures source[j] != '\n' {
        assert !OccursAt(source, "\n", j);
        assert source[j..j + 1] == [source[j]];
      }
      source[..i]
    case None =>
      assert '\n' !in source by {
        forall j | 0 <= j < |source| ensures source[j] != '\n' {
          assert !OccursAt(source, "\n", j);
          assert source[j..j + 1] == [source[j]];
        }
      }
      if |source| == 0 then "" else source[..|source| - 1]
  }

  /** The languages a download can be saved as. */
  datatype Language = VPython | RapydScript | CoffeeScript | JavaScript

  /** The language the first line names, tested in the source's order. */
  function Classify(source: string): (lang: Language)
    ensures lang == VPython <==> Contains(FirstLine(source), "ython")
    ensures lang == RapydScript <==>
              !Contains(FirstLine(source), "ython") && Contains(FirstLine(source), "apyd")
    ensures lang == CoffeeScript <==>
              !Contains(FirstLine(source), "ython") && !Contains(FirstLine(source), "apyd")
              && Contains(FirstLine(source), "ofee")
  {
    var h := FirstLine(source);
    if Find(h, "ython").Some? then VPython
    else if Find(h, "apyd").Some? then RapydScript
    else if Find(h, "ofee").Some? then CoffeeScript
    else JavaScript
  }

  function Extension(lang: Language): string {
    match lang
    case VPython => ".py"
    case RapydScript => ".py"
    case CoffeeScript => ".cs"
    case JavaScript => ".js"
  }

  /** The line prepended to a VPython program so it runs as a Python script. */
  const VPythonPrelude := "from vpython import *\n#"

  /** One downloaded file: its name and its content. */
  datatype Download = Download(fileName: string, content: string)

  /** The file the `downloadProgram` option sends for program `name` of user
      `user`: `user_name.ext`, with the VPython prelude in front of a VPython
      source and the source unchanged otherwise. */
  function DownloadFile(user: string, name: string, source: string): (d: Download)
    ensures d.fileName == user + "_" + name + Extension(Classify(source))
    ensures Classify(source) == VPython ==> d.content == VPythonPrelude + source
    ensures Classify(source) != VPython ==> d.content == source
    ensures |d.content| >= |source| && d.content[|d.content| - |source|..] == source
  {
    var lang := Classify(source);
    var content := if lang == VPython then VPythonPrelude + source else source;
    Download(user + "_" + name + Extension(lang), content)
  }

  /** `Contains` on a short literal, decided position by position. */
  lemma NotContains(h: string, sub: string)
    requires |sub| > 0
    requires forall i :: 0 <= i < |h| && h[i] == sub[0] ==> i + |sub| > |h|
    ensures !Contains(h, sub)
  {
    forall i: nat | i <= |h| ensures !OccursAt(h, sub, i) {
      if i + |sub| <= |h| {
        assert h[i..i + |sub|][0] == h[i];
      }
    }
  }

  lemma FirstLineOfVPython()
    ensures FirstLine("VPython") == "VPytho"
    ensures FirstLine("VPython" + "\n") == "VPython"
  {
    LoneFirstLine("VPython");
    assert "VPython"[..6] == "VPytho";
    TerminatedFirstLine("VPython");
  }

  /** Without a newline, the first line is everything but the last character. */
  lemma LoneFirstLine(line: string)
    requires '\n' !in line && line != []
    ensures FirstLine(line) == line[..|line| - 1]
  {
    var h := FirstLine(line);
    assert |h| == |line| - 1 && h <= line;
  }

  /** One member of the `downloadFolder` archive, classified by the archive's
      own copy of the language test: the program name with the extension of
      its language, and the source with the VPython prelude in front of a
      VPython program. */
  function ArchiveEntry(name: string, source: string): (d: Download)
    ensures Classify(source) == VPython ==> d.content == VPythonPrelude + source
    ensures Classify(source) != VPython ==> d.content == source
    ensures |d.fileName| > |name| && d.fileName[..|name|] == name
  {
    var lang := Classify(source);
    if lang == VPython then Download(name + ".py", VPythonPrelude + source)
    else if lang == RapydScript then Download(name + ".py", source)
    else if lang == CoffeeScript then Download(name + ".cs", source)
    else Download(name + ".js", source)
  }

  /** An archived program and the same program downloaded alone agree: the
      single file is the archive entry's name behind `user_`, with the same
      content. */
  lemma ArchiveMatchesDownload(user: string, name: string, source: string)
    ensures DownloadFile(user, name, source)
            == Download(user + "_" + ArchiveEntry(name, source).fileName, ArchiveEntry(name, source).content)
  {
  }

  /** The classifier cuts the last character of a one-line source, so a lone
      `VPython` line without a newline is saved as JavaScript, while the same
      line followed by a newline is saved as VPython. */
  lemma LoneLineLosesLastCharacter()
    ensures Classify("VPython") == JavaScript
    ensures Classify("VPython" + "\n") == VPython
  {
    TruncatedLineIsJavaScript();
    TerminatedLineIsVPython();
  }

  lemma TruncatedLineIsJavaScript()
    ensures Classify("VPython") == JavaScript
  {
    FirstLineOfVPython();
    TruncatedLineNamesNoLanguage();
  }

  lemma TerminatedLineIsVPython()
    ensures Classify("VPython" + "\n") == VPython
  {
    TerminatedFirstLine("VPython");
    MarkedVPython("VPython" + "\n", 2);
  }

  /** A line followed by a newline is read back whole as the first line. */
  lemma TerminatedFirstLine(line: string)
    requires '\n' !in line
    ensures FirstLine(line + "\n") == line
  {
    var s := line + "\n";
    var h := FirstLine(s);
    assert s[|line|] == '\n';
    assert h == s[..|line|] == line;
  }

  /** A first line with the five characters `ython` at index `k` is VPython. */
  lemma MarkedVPython(source: string, k: nat)
    requires var h := FirstLine(source);
             k + 5 <= |h| && h[k] == 'y' && h[k + 1] == 't' && h[k + 2] == 'h' && h[k + 3] == 'o' && h[k + 4] == 'n'
    ensures Classify(source) == VPython
  {
    var h := FirstLine(source);
    assert h[k..k + 5] == "ython";
    assert OccursAt(h, "ython", k);
  }

  /** None of the three markers occurs in `VPytho`. */
  lemma TruncatedLineNamesNoLanguage()
    ensures !Contains("VPytho", "ython") && !Contains("VPytho", "apyd") && !Contains("VPytho", "ofee")
  {
    var h: string := "VPytho";
    NotContains(h, "ython");
    NotContains(h, "apyd");
    NotContains(h, "ofee");
  }
}

=== FILE: schema.dfy ===
/** The three record kinds of src/ndb_models.py. A record's own name is its
    key, so it is not a field here: the store maps keys to records. */
module Schema {
  import opened Wrappers
  import UrlNames

  type byte = UrlNames.byte

  /** A user of the IDE; the key is the user's unique name. */
  datatype User = User(email: string, secret: string, joinDate: int)

  /** A folder of one user. `isPublic` was not set on records written before
      March 2015, hence the Option; an unset value reads as public. */
  datatype Folder = Folder(isPublic: Option<bool>)

  /** A program in one folder. `description` is kept but unused, `screenshot`
      is optional raw bytes and `datetime` the last-modified time. */
  datatype Program = Program(source: string, description: string,
                             screenshot: Option<seq<byte>>, datetime: Option<int>)
}

=== FILE: setting.dfy ===
/** `Setting.get` of src/ndb_models.py: a process-wide cache in front of the
    datastore's `Setting` entities, each holding a string value under the
    setting's name. */
module SettingCache {

  /** The cache dictionary and the stored entities, both by setting name. */
  datatype State = State(cache: map<string, string>, store: map<string, string>)

  /** The value a missing setting is created with. */
  const NotSet := "NOT SET"

  /** What one call returns: the next state, the setting's value, and whether
      the call read the datastore. */
  datatype Lookup = Lookup(next: State, value: string, readStore: bool)

  /** `Setting.get(name)`. A cached entry is returned as is. Otherwise the
      store is read: a stored entity is cached and returned, and a missing one
      is created with `NotSet` and returned without being cached. */
  function Get(st: State, name: string): (r: Lookup)
    ensures name in st.cache ==> r == Lookup(st, st.cache[name], false)
    ensures name !in st.cache && name in st.store ==>
              r.readStore && r.value == st.store[name]
              && r.next == st.(cache := st.cache[name := st.store[name]])
    ensures name !in st.cache && name !in st.store ==>
              r.readStore && r.value == NotSet
              && r.next == st.(store := st.store[name := NotSet])
    ensures name !in st.cache ==> name in r.next.store
    ensures r.readStore <==> name !in st.cache
  {
    if name in st.cache then Lookup(st, st.cache[name], false)
    else if name in st.store then
      Lookup(st.(cache := st.cache[name := st.store[name]]), st.store[name], true)
    else
      Lookup(st.(store := st.store[name := NotSet]), NotSet, true)
  }

  /** The cache only grows and never changes an entry it already holds. */
  lemma CacheOnlyGrows(st: State, name: string)
    ensures var r := Get(st, name);
            forall n :: n in st.cache ==> n in r.next.cache && r.next.cache[n] == st.cache[n]
  {
  }

  /** Every cached entry agrees with the store. */
  predicate Coherent(st: State) {
    forall n :: n in st.cache ==> n in st.store && st.store[n] == st.cache[n]
  }

  /** A call keeps the cache coherent with the store, and its value is the
      value the store then holds. */
  lemma GetKeepsCoherent(st: State, name: string)
    requires Coherent(st)
    ensures Coherent(Get(st, name).next)
    ensures name in Get(st, name).next.store
    ensures Get(st, name).value == Get(st, name).next.store[name]
  {
  }

  /** A missing setting takes two calls to enter the cache: the first creates
      it, the second reads it back and caches it, and from then on the store
      is no longer read. All three calls agree on the value. */
  lemma MissingSettingCachedOnSecondCall(st: State, name: string)
    requires name !in st.cache && name !in st.store
    ensures var first := Get(st, name);
            var second := Get(first.next, name);
            var third := Get(second.next, name);
            && name !in first.next.cache
            && second.readStore && name in second.next.cache
            && !third.readStore
            && first.value == NotSet && second.value == NotSet && third.value == NotSet
  {
  }

  /** Repeating a call returns the same value, whatever the state was. */
  lemma GetStable(st: State, name: string)
    ensures Get(Get(st, name).next, name).value == Get(st, name).value
  {
  }
}

=== FILE: strs.dfy ===
/** String helpers with Python's meaning: `str.find`, `str.split` on a
    character or on a separator, `'/'.join`, and ASCII lower-casing. */
module Strs {
  import opened Wrappers

  /** `sub` occurs in `s` starting at index `i`. */
  predicate OccursAt(s: string, sub: string, i: nat) {
    i + |sub| <= |s| && s[i..i + |sub|] == sub
  }

  /** `sub in s`. */
  predicate Contains(s: string, sub: string) {
    exists i: nat | i <= |s| :: OccursAt(s, sub, i)
  }

  /** `s.find(sub)`: the first index where `sub` occurs, or None for -1. */
  function Find(s: string, sub: string): (r: Option<nat>)
    ensures r.Some? ==> OccursAt(s, sub, r.value)
    ensures r.Some? ==> forall j: nat :: j < r.value ==> !OccursAt(s, sub, j)
    ensures r.None? ==> forall j: nat :: !OccursAt(s, sub, j)
  {
    FindFrom(s, sub, 0)
  }

  /** The first occurrence at or after `start`. */
  function FindFrom(s: string, sub: string, start: nat): (r: Option<nat>)
    requires forall j: nat :: j < start ==> !OccursAt(s, sub, j)
    ensures r.Some? ==> OccursAt(s, sub, r.value)
    ensures r.Some? ==> forall j: nat :: j < r.value ==> !OccursAt(s, sub, j)
    ensures r.None? ==> forall j: nat :: !OccursAt(s, sub, j)
    decreases |s| - start
  {
    if start + |sub| > |s| then None
    else if s[start..start + |sub|] == sub then Some(start)
    else FindFrom(s, sub, start + 1)
  }

  /** `s.split(c)` for a one-character separator: always at least one part. */
  function SplitChar(s: string, c: char): (parts: seq<string>)
    ensures |parts| >= 1
    ensures forall i :: 0 <= i < |parts| ==> c !in parts[i]
    ensures c !in s ==> parts == [s]
    decreases |s|
  {
    match Find(s, [c])
    case None =>
      assert c !in s by {
        if c in s {
          var i :| 0 <= i < |s| && s[i] == c;
          assert OccursAt(s, [c], i);
        }
      }
      [s]
    case Some(i) =>
      assert c !in s[..i] by {
        forall j | 0 <= j < i ensures s[j] != c {
          assert !OccursAt(s, [c], j);
        }
      }
      assert s[i..i + 1] == [c];
      assert s[i] == c;
      [s[..i]] + SplitChar(s[i + 1..], c)
  }

  /** `c.join(parts)`. */
  function JoinChar(parts: seq<string>, c: char): string
    requires |parts| >= 1
  {
    if |parts| == 1 then parts[0] else parts[0] + [c] + JoinChar(parts[1..], c)
  }

  /** `Find` returns the first occurrence whenever one is known. */
  lemma FindFirst(s: string, sub: string, k: nat)
    requires OccursAt(s, sub, k)
    requires forall j: nat :: j < k ==> !OccursAt(s, sub, j)
    ensures Find(s, sub) == Some(k)
  {
    assert Contains(s, sub);
  }

  /** Splitting at the first separator: a separator-free head, then the rest. */
  lemma SplitCharCons(a: string, c: char, rest: string)
    requires c !in a
    ensures SplitChar(a + [c] + rest, c) == [a] + SplitChar(rest, c)
  {
    var s := a + [c] + rest;
    assert OccursAt(s, [c], |a|) by {
      assert s[|a|..|a| + 1] == [c];
    }
    forall j: nat | j < |a| ensures !OccursAt(s, [c], j) {
      assert s[j..j + 1][0] == a[j];
    }
    FindFirst(s, [c], |a|);
    assert s[..|a|] == a;
    assert s[|a| + 1..] == rest;
  }

  /** Splitting a join gives the parts back when no part contains the separator. */
  lemma {:induction false} SplitJoin(parts: seq<string>, c: char)
    requires |parts| >= 1
    requires forall i :: 0 <= i < |parts| ==> c !in parts[i]
    ensures SplitChar(JoinChar(parts, c), c) == parts
    decreases |parts|
  {
    if |parts| > 1 {
      SplitJoin(parts[1..], c);
      SplitCharCons(parts[0], c, JoinChar(parts[1..], c));
      assert parts == [parts[0]] + parts[1..];
    }
  }

  /** `s.split(sep)` for a non-empty separator. */
  function Split(s: string, sep: string): (parts: seq<string>)
    requires |sep| > 0
    ensures |parts| >= 1
    decreases |s|
  {
    match Find(s, sep)
    case None => [s]
    case Some(i) => [s[..i]] + Split(s[i + |sep|..], sep)
  }

  /** The first part of a split ends at the first separator. */
  lemma SplitAtFirst(s: string, sep: string, i: nat)
    requires |sep| > 0 && Find(s, sep) == Some(i)
    ensures Split(s, sep) == [s[..i]] + Split(s[i + |sep|..], sep)
  {
  }

  /** Without the separator, the whole text is the only part. */
  lemma SplitAbsent(s: string, sep: string)
    requires |sep| > 0 && !Contains(s, sep)
    ensures Split(s, sep) == [s]
  {
  }

  /** A single part means the separator does not occur. */
  lemma SplitSingle(s: string, sep: string)
    requires |sep| > 0 && |Split(s, sep)| == 1
    ensures Find(s, sep).None? && Split(s, sep) == [s]
  {
  }

  /** Python's `str.lower()` restricted to ASCII letters. */
  function LowerChar(c: char): char {
    if 'A' <= c <= 'Z' then (c as int - 'A' as int + 'a' as int) as char else c
  }

  function Lower(s: string): (r: string)
    ensures |r| == |s|
    ensures forall i :: 0 <= i < |s| ==> r[i] == LowerChar(s[i])
  {
    if s == [] then [] else [LowerChar(s[0])] + Lower(s[1..])
  }
}

=== FILE: urlnames.dfy ===
/** Names of users, folders and programs as they appear in URLs
    (src/routes.py): the unreserved character set of section 2.3 of RFC 3986,
    the name validator, and the escaping loop that turns a raw path segment
    into a stored name. */
module UrlNames {
  import opened Wrappers

  newtype byte = x: int | 0 <= x < 256

  /** `chrange('A','Z') | chrange('a','z') | chrange('0','9') | set("-_.~")`. */
  predicate Unreserved(c: char) {
    ('A' <= c <= 'Z') || ('a' <= c <= 'z') || ('0' <= c <= '9')
    || c == '-' || c == '_' || c == '.' || c == '~'
  }

  /** What `validate_names` accepts of one name: unreserved characters and `%`. */
  predicate ValidName(s: string) {
    forall i :: 0 <= i < |s| ==> Unreserved(s[i]) || s[i] == '%'
  }

  /** `validate_names(*names)`: every character of every name is allowed. */
  function ValidateNames(names: seq<string>): (ok: bool)
    ensures ok <==> forall k :: 0 <= k < |names| ==> ValidName(names[k])
  {
    if names == [] then true
    else ValidName(names[0]) && ValidateNames(names[1..])
  }

  /** The UTF-8 encoding of one Unicode scalar value: a lead byte followed by
      as many continuation bytes as the code point needs. */
  function Utf8(c: char): (bs: seq<byte>)
    ensures 1 <= |bs| <= 4
    ensures (c as int < 0x80) <==> |bs| == 1
    ensures |bs| == 1 ==> bs[0] as int == c as int
    ensures |bs| > 1 ==> forall i :: 0 <= i < |bs| ==> bs[i] >= 0x80
  {
    var cp := c as int;
    if cp < 0x80 then [cp as byte]
    else if cp < 0x800 then [LeadByte(0xC0, cp / 0x40)] + Continuation(cp, 1)
    else if cp < 0x10000 then [LeadByte(0xE0, cp / 0x1000)] + Continuation(cp, 2)
    else [LeadByte(0xF0, cp / 0x40000)] + Continuation(cp, 3)
  }

  /** The lead byte of a multi-byte sequence: its marker bits plus the high
      bits `q` of the code point. */
  function LeadByte(marker: int, q: int): (b: byte)
    requires 0x80 <= marker && 0 <= q && marker + q < 0x100
    ensures b >= 0x80
  {
    (marker + q) as byte
  }

  /** The last `n` continuation bytes `0x80 | six bits` of a code point. */
  function Continuation(cp: nat, n: nat): (bs: seq<byte>)
    ensures |bs| == n
    ensures forall i :: 0 <= i < n ==> bs[i] >= 0x80
  {
    if n == 0 then [] else Continuation(cp / 64, n - 1) + [(0x80 + cp % 64) as byte]
  }

  /** `str.encode('utf-8')`. */
  function Utf8Encode(s: string): (bs: seq<byte>)
    ensures |s| <= |bs| <= 4 * |s|
  {
    if s == [] then [] else Utf8(s[0]) + Utf8Encode(s[1..])
  }

  /** Upper-case hexadecimal digit, as `quote` writes them (section 2.1 of RFC 3986). */
  function HexDigit(d: int): (c: char)
    requires 0 <= d < 16
    ensures Unreserved(c)
  {
    "0123456789ABCDEF"[d]
  }

  /** The `%XX` triplets of a byte string: three characters per byte, and only
      `%` and hex digits, so the result is a valid name. */
  function PercentEncode(bs: seq<byte>): (r: string)
    ensures |r| == 3 * |bs|
    ensures ValidName(r)
  {
    if bs == [] then []
    else
      var rest := PercentEncode(bs[1..]);
      var r := ['%', HexDigit(bs[0] as int / 16), HexDigit(bs[0] as int % 16)] + rest;
      assert forall i :: 3 <= i < |r| ==> r[i] == rest[i - 3];
      r
  }

  /** `urllib.parse.quote(c)` for a character that is neither unreserved nor `%`:
      the default `safe='/'` leaves `/` alone, every other character becomes the
      `%XX` triplets of its UTF-8 bytes. */
  function Quote(c: char): string
  {
    if c == '/' then "/" else PercentEncode(Utf8(c))
  }

  /** The replacement the loop in `parseUrlPath` appends for one character. */
  function EscapeChar(c: char): string
  {
    if c == '%' || Unreserved(c) then [c] else Quote(c)
  }

  /** The escaping loop of `parseUrlPath`: unreserved characters and `%` are kept,
      every other character is replaced by `quote(char)`. */
  function Normalize(s: string): string
  {
    if s == [] then [] else EscapeChar(s[0]) + Normalize(s[1..])
  }

  lemma {:induction false} NormalizeAppend(a: string, b: string)
    ensures Normalize(a + b) == Normalize(a) + Normalize(b)
    decreases |a|
  {
    if a == [] {
      assert a + b == b;
    } else {
      assert (a + b)[1..] == a[1..] + b;
      NormalizeAppend(a[1..], b);
    }
  }

  /** A normalised name passes `validate_names` exactly when the raw segment had
      no `/` in it; the route patterns capture `[^/]+`, so every name the
      handlers see is accepted. */
  lemma {:induction false} NormalizeValid(s: string)
    ensures ValidName(Normalize(s)) <==> '/' !in s
    decreases |s|
  {
    if s != [] {
      NormalizeValid(s[1..]);
      ValidAppend(EscapeChar(s[0]), Normalize(s[1..]));
      EscapeCharValid(s[0]);
      assert s == [s[0]] + s[1..];
    }
  }

  /** A concatenation is valid exactly when both halves are. */
  lemma ValidAppend(a: string, b: string)
    ensures ValidName(a + b) <==> ValidName(a) && ValidName(b)
  {
    if ValidName(a + b) {
      forall i | 0 <= i < |b| ensures Unreserved(b[i]) || b[i] == '%' {
        assert (a + b)[|a| + i] == b[i];
      }
      forall i | 0 <= i < |a| ensures Unreserved(a[i]) || a[i] == '%' {
        assert (a + b)[i] == a[i];
      }
    }
    if ValidName(a) && ValidName(b) {
      forall i | 0 <= i < |a + b| ensures Unreserved((a + b)[i]) || (a + b)[i] == '%' {
        if i >= |a| {
          assert (a + b)[i] == b[i - |a|];
        }
      }
    }
  }

  /** One escaped character is valid unless it is the `/` that `quote` keeps. */
  lemma EscapeCharValid(c: char)
    ensures ValidName(EscapeChar(c)) <==> c != '/'
  {
    if c == '/' {
      assert EscapeChar(c)[0] == '/';
    }
  }

  /** Names that already pass validation are left unchanged: unreserved
      characters and existing `%` escapes are never re-escaped. */
  lemma {:induction false} NormalizeKeepsValid(s: string)
    requires ValidName(s)
    ensures Normalize(s) == s
    decreases |s|
  {
    if s != [] {
      assert ValidName(s[1..]) by {
        forall i | 0 <= i < |s[1..]| ensures Unreserved(s[1..][i]) || s[1..][i] == '%' {
          assert s[1..][i] == s[i + 1];
        }
      }
      NormalizeKeepsValid(s[1..]);
      assert s == [s[0]] + s[1..];
    }
  }

  /** Quoting a character yields a string the loop leaves alone. */
  lemma EscapeCharStable(c: char)
    ensures Normalize(EscapeChar(c)) == EscapeChar(c)
  {
    if c == '%' || Unreserved(c) {
      assert ValidName([c]);
      NormalizeKeepsValid([c]);
    } else if c == '/' {
      assert Normalize("/") == "/" + Normalize([]);
    } else {
      NormalizeKeepsValid(PercentEncode(Utf8(c)));
    }
  }

  /** Normalisation is idempotent, on every input. */
  lemma {:induction false} NormalizeIdempotent(s: string)
    ensures Normalize(Normalize(s)) == Normalize(s)
    decreases |s|
  {
    if s != [] {
      NormalizeAppend(EscapeChar(s[0]), Normalize(s[1..]));
      EscapeCharStable(s[0]);
      NormalizeIdempotent(s[1..]);
    }
  }

  /** Every character is unreserved, `%` or `/`. */
  predicate InAlphabet(s: string) {
    forall i :: 0 <= i < |s| ==> Unreserved(s[i]) || s[i] == '%' || s[i] == '/'
  }

  lemma EscapeCharAlphabet(c: char)
    ensures InAlphabet(EscapeChar(c))
  {
    if !(c == '%' || Unreserved(c)) && c != '/' {
      assert ValidName(PercentEncode(Utf8(c)));
    }
  }

  lemma AlphabetAppend(a: string, b: string)
    requires InAlphabet(a) && InAlphabet(b)
    ensures InAlphabet(a + b)
  {
    forall i | 0 <= i < |a + b| ensures Unreserved((a + b)[i]) || (a + b)[i] == '%' || (a + b)[i] == '/' {
      if i >= |a| {
        assert (a + b)[i] == b[i - |a|];
      }
    }
  }

  /** Every character of a normalised name is unreserved, `%` or `/`: in
      particular it never holds `:`. */
  lemma {:induction false} NormalizeAlphabet(s: string)
    ensures forall i :: 0 <= i < |Normalize(s)| ==>
              Unreserved(Normalize(s)[i]) || Normalize(s)[i] == '%' || Normalize(s)[i] == '/'
    decreases |s|
  {
    if s != [] {
      NormalizeAlphabet(s[1..]);
      EscapeCharAlphabet(s[0]);
      AlphabetAppend(EscapeChar(s[0]), Normalize(s[1..]));
      assert InAlphabet(Normalize(s));
    }
  }

  /** The name-handling part of `parseUrlPath`: a failed pattern match (None) is
      "Parsing URL failed", a name that does not validate is "Invalid string in
      URL"; both are reported with status 400. */
  function ParseNames(groups: Option<seq<string>>): (r: Result<seq<string>, string>)
    ensures r.Success? ==> groups.Some? && |r.value| == |groups.value|
    ensures r.Success? ==> forall k :: 0 <= k < |r.value| ==>
              r.value[k] == Normalize(groups.value[k]) && ValidName(r.value[k])
    ensures groups.Some? ==> (r.Success? <==> forall k :: 0 <= k < |groups.value| ==> '/' !in groups.value[k])
    ensures groups.None? ==> r == Failure("Parsing URL failed")
    ensures groups.Some? && r.Failure? ==> r.error == "Invalid string in URL"
  {
    match groups
    case None => Failure("Parsing URL failed")
    case Some(gs) =>
      var names := seq(|gs|, k requires 0 <= k < |gs| => Normalize(gs[k]));
      forall k | 0 <= k < |gs| ensures ValidName(names[k]) <==> '/' !in gs[k] {
        NormalizeValid(gs[k]);
      }
      if |names| > 0 && !ValidateNames(names) then Failure("Invalid string in URL")
      else Success(names)
  }
}

=== FILE: wrappers.dfy ===
/** Option and Result, the two failure-carrying datatypes the model uses for
    Python's `None` returns and raised exceptions. */
module Wrappers {

  datatype Option<+T> = None | Some(value: T) {

    /** The wrapped value, or `default` when there is none. */
    function GetOr(default: T): T {
      match this
      case Some(v) => v
      case None => default
    }
  }

  datatype Result<+R, +E> = Success(value: R) | Failure(error: E) {

    predicate IsFailure() {
      Failure?
    }

    function PropagateFailure<U>(): Result<U, E>
      requires Failure?
    {
      Failure(error)
    }

    function Extract(): R
      requires Success?
    {
      value
    }
  }
}
